=== FILE: README.md ===
# videodb skills: a verified model of the decision logic

The repository ships command-line "skills" around a video SDK. The model covers:

- **scene index** (`scene_index`): create, list or search the visual scene indexes of a video;
- **search** (`search_videodb`): natural-language search in one video or across a collection;
- **transcript** (`get_transcript`): fetch a transcript as timed segments, as text, or both;
- **skill validator** (`validate_skill` and `main`): check the YAML frontmatter of every skill's `SKILL.md`.

Each skill is a short sequential decision procedure, and that procedure is what is modelled.

The SDK is replaced by a **script**: the answers the backend gives, fixed in advance.

- A call that can happen several times (readiness listings, searches, transcript fetches, indexing requests) is answered by a function from "the i-th such call" to its answer.
- A call that happens at most once is a plain field.
- A Python exception is `Raised(message)`. The message is the text `str(e)` would show, and it is all the classifiers look at.

Every operation returns its outcome together with the **trace** of backend calls it issued, in order. This makes call-count bounds statements about the trace:

- at most two searches;
- at most one index creation;
- at most 31 readiness checks;
- no upload when a video matches.

An absent or `None` video id, URL or query is the empty string, which mirrors Python's truthiness test on those arguments. The other string arguments have defaults (`Defaults` in each skill), and an explicit value for them is taken as given.

## Modules

| module | file | contents |
|---|---|---|
| `Text` | text.dfy | ASCII lower-casing, substring search, `str.find`, `str.split()` with Python's separator set, decimal rendering |
| `Backend` | backend.dfy | calls, traces, outcomes, the entities the skills read (video, shot, index description, segment), the environment |
| `YouTube` | youtube.dfy | `extract_youtube_id` as a leftmost-match scan |
| `Resolver` | resolver.dfy | find-or-upload resolution of a URL, and the id-or-URL lookup around it |
| `Formatter` | formatter.dfy | score priority, one output record per shot, compiling only non-empty results |
| `Errors` | errors.dfy | error codes, ordered input checks, ordered case-insensitive classification tables |
| `SceneIndex` | scene_index.dfy | the scene-index skill: readiness, bounded polling, search with one recovery |
| `Search` | search.dfy | the search skill: type mapping, `ensure_indexed`, scope dispatch, single retry |
| `Transcript` | transcript.dfy | the transcript skill: ensure-then-fetch, format dispatch, counts |
| `SkillValidator` | validate_skills.dfy | frontmatter delimiting, name and description rules, directory filter, exit status |

## Behaviour the model keeps as the code has it

These are quirks of the code, mirrored faithfully rather than corrected:

- **Search scope.** Only the exact scope `"video"` demands a video reference. Any scope other than `"collection"` still takes the video path, so a scope such as `"Video"` with no id looks up the id `""`.
- **Retry test.** The search skill tests the first error for `"not indexed"` or `"index"`. The first test is implied by the second (`Search.RetriesOnIndex`), so the retry fires on any mention of "index".
- **Scene-index recovery.** An empty first result is turned into the exception "No results - may need indexing". That text itself passes the recovery test (`SceneIndex.NoResultsNeedsIndex`).
- **Name pattern.** The validator's name pattern is anchored with Python's `$`, which also matches before one final newline. A name such as `"my-skill\n"` therefore passes the pattern check (`SkillValidator.NamePatternTrailingNewline`).
- **Transcript classifier.** This classifier maps any exception mentioning "not found" to `NO_TRANSCRIPT`, including one raised by the video lookup itself. The explicit `VIDEO_NOT_FOUND` reply arises only when the lookup returns nothing.
- **No polling in search.** The search skill never polls for readiness and never reports `INDEXING_TIMEOUT`. After an index error it requests indexing once and searches once more. Polling and the timeout reply belong to the scene-index skill alone.

## Model

| member | source | states |
|---|---|---|
| Text.Lower | skills/videodb-scene-index/scripts/scene_index.py:228 | lower-casing keeps the length and folds each character independently |
| Text.FindFrom | skills/validate_skills.py:39 | -1 exactly when the needle occurs nowhere at or after the start; otherwise the least index at or after the start where it occurs |
| Text.Split | skills/videodb-transcript/scripts/transcript.py:167 | every piece `str.split()` yields is a non-empty run free of whitespace |
| Text.SplitAtSeparator | skills/videodb-transcript/scripts/transcript.py:167 | splitting text that has a whitespace character in it gives the tokens of the left part followed by those of the right part |
| Text.SplitWord | skills/videodb-transcript/scripts/transcript.py:167 | a non-empty run without whitespace is exactly one token |
| Text.SplitBlank | skills/videodb-transcript/scripts/transcript.py:167 | text made only of whitespace has no tokens |
| Text.ShowNat | skills/validate_skills.py:55 | the length rendered in an error message is a non-empty string of decimal digits |
| Text.ShowNatRoundTrip | skills/validate_skills.py:55 | reading the rendered digits back gives the number itself |
| YouTube.AlternativesExclusive | skills/videodb-scene-index/scripts/scene_index.py:56 | no two of the three URL prefixes occur at the same position, so the order of the alternatives cannot change a match |
| YouTube.RunEnd | skills/videodb-scene-index/scripts/scene_index.py:56 | the greedy id run stops at the first non-id character or at the end |
| YouTube.MatchFrom | skills/videodb-scene-index/scripts/scene_index.py:59 | the search finds the leftmost position where a prefix is followed by at least one id character, and none when no position qualifies |
| YouTube.ExtractYoutubeId | skills/videodb-scene-index/scripts/scene_index.py:53-62 | None exactly when no prefix is followed by an id character; otherwise a non-empty substring of the URL made only of id characters |
| YouTube.LeftmostMatch | skills/videodb-scene-index/scripts/scene_index.py:59 | a match with no match before it is the one the search returns |
| YouTube.ExtractIsLeftmostMaximalRun | skills/videodb-scene-index/scripts/scene_index.py:53-62 | the extracted id is the whole id run after the leftmost matching prefix: the character after it is not an id character |
| YouTube.TokenIsMaximal | skills/videodb-scene-index/scripts/scene_index.py:56 | the greedy id run after a prefix ends at the end of the URL or before a character that is not an id character |
| YouTube.ShortLinkExample | skills/videodb-scene-index/scripts/scene_index.py:53-62 | `https://youtu.be/abc123` yields `abc123` |
| Resolver.FirstMatch | skills/videodb-scene-index/scripts/scene_index.py:143-146 | the first video from the start position whose name and source contain the id, with none before it; None when no video does |
| Resolver.MatchIndex | skills/videodb-scene-index/scripts/scene_index.py:142-146 | the video returned from the listing is the first match in collection order; there is none exactly when no id is extracted or no video contains it |
| Resolver.FromUrl | skills/videodb-scene-index/scripts/scene_index.py:140-147 | a failing listing is re-raised after one call; a match returns that video after only the listing; otherwise exactly one upload of the URL follows and its result is returned as new |
| Resolver.UploadOnlyWithoutMatch | skills/videodb-search/scripts/search.py:147-158 | upload happens at most once and exactly when nothing matches; `is_new` is true exactly when upload was called |
| Resolver.Locate | skills/videodb-scene-index/scripts/scene_index.py:149-154 | without a URL one lookup by the given id, which may find nothing; with a URL the find-or-upload result, reported under the resolved video's own id, or its exception with the same message |
| Resolver.LocateCalls | skills/videodb-transcript/scripts/transcript.py:124-129 | resolution issues one or two calls, all of them collection calls |
| Resolver.ShortLinkResolvesToExisting | skills/videodb-scene-index/scripts/scene_index.py:140-147 | a short link whose id the first video's descriptor contains resolves to that video with no upload |
| Formatter.FirstPresent | skills/videodb-scene-index/scripts/scene_index.py:287-291 | the first present value in order, and None only when all are absent |
| Formatter.ScoreOf | skills/videodb-scene-index/scripts/scene_index.py:286-291 | the score is `search_score`, else `score`, else `relevance_score`, else `confidence` |
| Formatter.SceneHits | skills/videodb-scene-index/scripts/scene_index.py:284-299 | one record per shot in backend order, carrying its times, text (empty when absent), score and stream URL |
| Formatter.SearchHits | skills/videodb-search/scripts/search.py:205-222 | one record per shot in backend order; each record's video is the shot's own when it names one, the resolved video otherwise |
| Formatter.CompiledUrl | skills/videodb-scene-index/scripts/scene_index.py:301 | `compile` is called once exactly when there is at least one shot, and its URL or its error is passed on; no shots gives None and no call |
| Errors.FirstFailure | skills/videodb-scene-index/scripts/scene_index.py:112-133 | the first failing check in order is reported, and nothing exactly when all pass |
| Errors.FirstOfFive | skills/videodb-search/scripts/search.py:90-127 | with five checks, the reply is the failure of the first check that fails, tried in order, and nothing when all five pass |
| Errors.Classify | skills/videodb-scene-index/scripts/scene_index.py:313-334 | the first rule one of whose phrases occurs in the lower-cased text decides the code and fixed message; with none, the fallback code carries the raw text |
| Errors.ClassifyIgnoresCase | skills/videodb-scene-index/scripts/scene_index.py:314 | classification depends on the text only up to the case of its letters |
| SceneIndex.Validate | skills/videodb-scene-index/scripts/scene_index.py:95-133 | missing SDK, then missing key, then `INVALID_ACTION`, then `MISSING_QUERY`, then `MISSING_VIDEO_ID`; none exactly when all inputs are acceptable |
| SceneIndex.AnyReady | skills/videodb-scene-index/scripts/scene_index.py:225-230 | true exactly when some index's status text contains "done" or "ready" in any case |
| SceneIndex.IsReady | skills/videodb-scene-index/scripts/scene_index.py:222-232 | ready exactly when the listing succeeds and some index is ready; any listing failure counts as not ready |
| SceneIndex.Waits | skills/videodb-scene-index/scripts/scene_index.py:251-253 | n polls make exactly 2n calls |
| SceneIndex.WaitsCount | skills/videodb-scene-index/scripts/scene_index.py:251-253 | n polls issue exactly n pauses and n readiness checks and nothing else |
| SceneIndex.Poll | skills/videodb-scene-index/scripts/scene_index.py:251-255 | the number of polls it takes is between 1 and 30 |
| SceneIndex.FirstReady | skills/videodb-scene-index/scripts/scene_index.py:251-255 | the first ready poll after the ones already made, with none ready before it; None exactly when no remaining poll up to 30 is ready |
| SceneIndex.PollFindsFirstReady | skills/videodb-scene-index/scripts/scene_index.py:251-255 | the poll count reached is the first ready listing, no earlier poll was ready, and None exactly when all 30 polls fail |
| SceneIndex.EnsureSceneIndex | skills/videodb-scene-index/scripts/scene_index.py:235-255 | an index already ready returns true after one check with no creation; otherwise one creation, a failure of which is re-raised after it, and then the polls up to the first ready one, or all 30; the answer is whether a poll was ready |
| SceneIndex.EnsureSceneIndexReady | skills/videodb-scene-index/scripts/scene_index.py:235-255 | false exactly when the first check is not ready, creation succeeds, and all 30 polls fail; true only when some check saw a ready index |
| SceneIndex.EnsureSceneIndexCalls | skills/videodb-scene-index/scripts/scene_index.py:235-255 | at most one creation, made exactly when the first check is not ready; at most 31 readiness checks; a timeout costs exactly 31 checks and 30 pauses |
| SceneIndex.NoResultsNeedsIndex | skills/videodb-scene-index/scripts/scene_index.py:263-267 | the exception raised for an empty first result passes the recovery test |
| SceneIndex.SearchScenes | skills/videodb-scene-index/scripts/scene_index.py:258-281 | a non-recoverable first result is final after one search; recovery re-raises a creation failure, times out, or searches exactly once more and takes that result, empty or not |
| SceneIndex.SearchScenesCalls | skills/videodb-scene-index/scripts/scene_index.py:258-281 | one or two searches, two exactly after a recoverable first result and a ready index; never more than one creation or 31 checks |
| SceneIndex.SearchScenesTimeout | skills/videodb-scene-index/scripts/scene_index.py:270-279 | a timeout happens only after one search, one creation and the full 30 polls, and nothing else |
| SceneIndex.Create | skills/videodb-scene-index/scripts/scene_index.py:164-194 | one `index_scenes` call; the reply echoes the configuration and carries the time interval exactly for time-based extraction |
| SceneIndex.Entries | skills/videodb-scene-index/scripts/scene_index.py:203-209 | one entry per index, in order, identified by its id or else by its printed form |
| SceneIndex.List | skills/videodb-scene-index/scripts/scene_index.py:196-218 | one listing call; an `AttributeError` is a success saying listing is unavailable; any other error is re-raised; each entry carries its index's id (or printed form) and creation time |
| SceneIndex.Search | skills/videodb-scene-index/scripts/scene_index.py:258-311 | a timeout becomes `INDEXING_TIMEOUT`; found shots are shaped, compiled only when non-empty, and counted |
| SceneIndex.SearchCompilesOnlyHits | skills/videodb-scene-index/scripts/scene_index.py:283-311 | at most one compile, made exactly when the final search found shots; the total equals the number of results, and a stream URL is present exactly for non-empty results |
| SceneIndex.Act | skills/videodb-scene-index/scripts/scene_index.py:164-220 | create gives the creation reply after one `index_scenes` call; list gives the listing reply of the first listing after one call; any other action is the search |
| SceneIndex.ClassifyError | skills/videodb-scene-index/scripts/scene_index.py:313-334 | "not indexed" or "no scene" gives `NOT_INDEXED`, else "processing" gives `PROCESSING`, else `SCENE_INDEX_ERROR` with the raw text |
| SceneIndex.ClassifiedCodes | skills/videodb-scene-index/scripts/scene_index.py:313-334 | a classified exception is never reported as a timeout or a validation code |
| SceneIndex.Execute | skills/videodb-scene-index/scripts/scene_index.py:136-162 | the connection comes first and a failing connection or resolution is re-raised; a video that is not found is `VIDEO_NOT_FOUND` under the id looked up; a found video runs the action under its resolved id, after the resolution calls |
| SceneIndex.Run | skills/videodb-scene-index/scripts/scene_index.py:95-334 | a validation failure is reported with no backend call; otherwise the calls are those of the connected run, its reply passes through unchanged, and an escaping exception is reported as the skill's classification of its message |
| SceneIndex.MissingVideoStops | skills/videodb-scene-index/scripts/scene_index.py:149-160 | a lookup by id that finds nothing is `VIDEO_NOT_FOUND` for that id, after only the connection and the lookup |
| SceneIndex.ConnectsOnce | skills/videodb-scene-index/scripts/scene_index.py:136-137 | after validation passes, exactly one connection is made |
| SceneIndex.SearchCalls | skills/videodb-scene-index/scripts/scene_index.py:258-311 | the search action issues at most 2 searches, 1 creation, 31 readiness checks and 1 compile |
| SceneIndex.ActCalls | skills/videodb-scene-index/scripts/scene_index.py:164-311 | the same bounds for every action; create and list never search or pause |
| SceneIndex.ActTimeout | skills/videodb-scene-index/scripts/scene_index.py:270-279 | an action-level failure reply is the timeout: its calls are one search, one creation and the full 30 polls |
| SceneIndex.ExecuteTimeout | skills/videodb-scene-index/scripts/scene_index.py:136-162 | an `INDEXING_TIMEOUT` reply comes after the connection, the video resolution, one search, one creation and the full 30 polls, in that order |
| SceneIndex.TimeoutAfterFullWait | skills/videodb-scene-index/scripts/scene_index.py:270-279 | `INDEXING_TIMEOUT` is reported only after one search, one creation, 31 readiness checks and 30 pauses, with no second search and no compile |
| Search.IsUrl | skills/videodb-search/scripts/search.py:47-49 | a text is a URL exactly when it starts with an http or https scheme, so every URL is at least seven characters long and starts with "http" |
| Search.IsUrlShape | skills/videodb-search/scripts/search.py:47-49 | anything after an http or https scheme is a URL, a URL stays one when extended, and text shorter than seven characters is not one |
| Search.ParseSearchType | skills/videodb-search/scripts/search.py:118-121 | a search type is recognised exactly when the lower-cased text is its name |
| Search.ParseIndexType | skills/videodb-search/scripts/search.py:119-122 | an index type is recognised exactly when the lower-cased text is its name |
| Search.ParseTypesRoundTrip | skills/videodb-search/scripts/search.py:118-122 | every type name maps back to its type, and the mapping ignores case |
| Search.Validate | skills/videodb-search/scripts/search.py:90-127 | missing SDK, then missing key, then `MISSING_VIDEO_ID` for the exact scope "video" without id or URL, then `INVALID_SEARCH_TYPE`, then `INVALID_INDEX_TYPE` |
| Search.IndexCall | skills/videodb-search/scripts/search.py:137-140 | spoken-word indexing for the spoken-word type, scene indexing for the scene type |
| Search.EnsureIndexed | skills/videodb-search/scripts/search.py:134-144 | one indexing request; it succeeds exactly when the backend agrees or its error mentions "already"; any other error is re-raised unchanged |
| Search.RetriesOnIndex | skills/videodb-search/scripts/search.py:191 | the retry test fires exactly when the error mentions "index" |
| Search.SearchVideo | skills/videodb-search/scripts/search.py:180-202 | a first result, even empty, is final; a non-index error is re-raised after one search; an index error leads to one indexing request and, unless that fails, exactly one more search whose outcome is final |
| Search.SearchVideoCalls | skills/videodb-search/scripts/search.py:180-202 | one or two searches and at most one indexing request; two searches exactly after an error mentioning "index" and an accepted indexing request |
| Search.Shape | skills/videodb-search/scripts/search.py:204-235 | the reply echoes the query and scope; the results are the shots' records with the resolved video as fallback; the total is the shot count; the stream URL is present exactly for non-empty results |
| Search.SearchAndShape | skills/videodb-search/scripts/search.py:180-235 | the search block comes first, and its shots, if any, are shaped |
| Search.OnVideo | skills/videodb-search/scripts/search.py:169-178 | the URL path requests indexing before searching; the id path searches first |
| Search.Execute | skills/videodb-search/scripts/search.py:129-178 | the connection comes first and its failure is re-raised; collection scope is one collection search whose shots are shaped under the given id; video scope re-raises a resolution failure, reports a missing video as `VIDEO_NOT_FOUND`, and otherwise runs the video block under the resolved id |
| Search.ClassifyError | skills/videodb-search/scripts/search.py:237-245 | "not indexed" gives `NOT_INDEXED`; anything else is `SEARCH_ERROR` with the raw text |
| Search.Run | skills/videodb-search/scripts/search.py:90-245 | a validation failure is reported with no backend call; otherwise the calls are those of the connected run, its reply passes through unchanged, and an escaping exception is reported as the skill's classification of its message |
| Search.MissingVideoStops | skills/videodb-search/scripts/search.py:174-178 | in video scope, a lookup by id that finds nothing is `VIDEO_NOT_FOUND` for that id, after only the connection and the lookup |
| Search.SearchAndShapeCalls | skills/videodb-search/scripts/search.py:180-235 | at most 2 searches, 1 indexing request and 1 compile; a second search only after an index error; none after a successful first search |
| Search.OnVideoCalls | skills/videodb-search/scripts/search.py:169-235 | on the URL path at most 2 indexing requests, on the id path at most 1; never a collection search or an upload |
| Search.CollectionTrace | skills/videodb-search/scripts/search.py:161-167 | collection scope issues the connection, then, once connected, one collection search, and then at most one compile |
| Search.CollectionScopeCalls | skills/videodb-search/scripts/search.py:161-167 | collection scope makes one collection search and issues only connection, collection search and compile calls |
| Search.ExecuteVideoTrace | skills/videodb-search/scripts/search.py:129-178 | after a connection, the video path is the resolution followed, only when a video was found, by the video-scope block |
| Search.VideoScopeCalls | skills/videodb-search/scripts/search.py:168-202 | video scope never searches the collection, searches at most twice, uploads at most once, and retries only after an error mentioning "index" |
| Search.TwoShotScenario | skills/videodb-search/scripts/search.py:176-235 | a lookup of `vid_1` for "pricing" whose first search returns two shots gives two results, a compiled stream, and the calls connect, lookup, search, compile |
| Transcript.Validate | skills/videodb-transcript/scripts/transcript.py:75-108 | missing SDK, then missing key, then `INVALID_FORMAT`, then `MISSING_VIDEO_ID` |
| Transcript.SegmentCount | skills/videodb-transcript/scripts/transcript.py:159 | the transcript's length, and 0 exactly when it is absent or empty |
| Transcript.WordCount | skills/videodb-transcript/scripts/transcript.py:167 | the number of whitespace-separated tokens, 0 for no text |
| Transcript.WordCountSpec | skills/videodb-transcript/scripts/transcript.py:167 | word counts add across a whitespace character, a single word counts one, and blank text counts none |
| Transcript.Duration | skills/videodb-transcript/scripts/transcript.py:143 | the length when present and non-zero, else the duration attribute |
| Transcript.EnsureTranscript | skills/videodb-transcript/scripts/transcript.py:147-154 | fetch with the caller's `force`; a "does not exist" or "generate transcript" error leads to one generation and one unforced fetch; other errors are re-raised |
| Transcript.EnsureTranscriptCalls | skills/videodb-transcript/scripts/transcript.py:147-154 | at most one generation, made exactly for a missing transcript; at most three calls, none of them a text fetch |
| Transcript.Dispatch | skills/videodb-transcript/scripts/transcript.py:156-167 | every valid format runs the ensure step once; timestamped sets the segments and count, text sets the text and word count after one text fetch, both sets all four |
| Transcript.OneEnsurePerFormat | skills/videodb-transcript/scripts/transcript.py:156-167 | at most one generation and one text fetch, and no text fetch for timestamped; the reply has segments exactly for non-text formats and text exactly for non-timestamped ones |
| Transcript.ClassifyError | skills/videodb-transcript/scripts/transcript.py:171-192 | "no transcript" or "not found" gives `NO_TRANSCRIPT`, else "processing" gives `PROCESSING`, else `TRANSCRIPT_ERROR` with the raw text |
| Transcript.Execute | skills/videodb-transcript/scripts/transcript.py:110-167 | the connection comes first and a failing connection or resolution is re-raised; a missing video is `VIDEO_NOT_FOUND`; a found video replies under its resolved id, with its name or else that id, its duration, and the dispatched segments and text, or re-raises the dispatch failure |
| Transcript.Run | skills/videodb-transcript/scripts/transcript.py:75-192 | a validation failure is reported with no backend call; otherwise the calls are those of the connected run, its reply passes through unchanged, and an escaping exception is reported as the skill's classification of its message |
| Transcript.MissingVideoStops | skills/videodb-transcript/scripts/transcript.py:128-136 | a lookup by id that finds nothing is `VIDEO_NOT_FOUND` after only the connection and the lookup |
| SkillValidator.FrontmatterEnd | skills/validate_skills.py:39-41 | -1 exactly when no "---" starts at or after index 3; otherwise the first such index |
| SkillValidator.Frontmatter | skills/validate_skills.py:43 | the text between the opening delimiter and the first closing one, which contains no delimiter itself |
| SkillValidator.NamePatternWithoutNewline | skills/validate_skills.py:56 | on a name without newlines, the pattern holds exactly for non-empty names of lower-case letters, digits and hyphens |
| SkillValidator.NamePatternTrailingNewline | skills/validate_skills.py:56 | one trailing newline passes the pattern; two, or a newline alone, do not |
| SkillValidator.NameErrors | skills/validate_skills.py:54-59 | three independent errors that may accumulate, each at most once and in the order length over 64, pattern failure, "anthropic" or "claude" in any case; the count is the number of rules broken, and nothing else is reported |
| SkillValidator.DescriptionErrors | skills/validate_skills.py:70-71 | one error exactly when the description has more than 1024 characters |
| SkillValidator.NameIssues | skills/validate_skills.py:48-61 | a falsy name is one error; a non-string name is one error; otherwise the name errors, plus a warning only, exactly when the folder differs |
| SkillValidator.DescriptionIssues | skills/validate_skills.py:64-73 | a falsy description is one error; a non-string one is one error; otherwise the length error, plus a warning only, exactly when shorter than 20 |
| SkillValidator.SyntaxErrors | skills/validate_skills.py:76-83 | one error per script that does not compile, in order |
| SkillValidator.CheckFields | skills/validate_skills.py:47-85 | errors are the name, description and script errors in that order; warnings are the folder and short-description warnings; valid exactly when there is no error |
| SkillValidator.ValidateSkill | skills/validate_skills.py:17-85 | a missing file, a missing opening delimiter, an unclosed frontmatter and a YAML error each give invalid with exactly that one error and no warning; a non-mapping frontmatter aborts; valid exactly when there is no error |
| SkillValidator.OnlyFrontmatterParsed | skills/validate_skills.py:43 | only the frontmatter text reaches the parser: parsers agreeing on it give the same verdict |
| SkillValidator.WarningsNeverInvalidate | skills/validate_skills.py:60-61 | renaming the folder changes neither the errors nor validity |
| SkillValidator.LengthBoundaries | skills/validate_skills.py:54-72 | a 64-character name is not too long and a 65-character one is; descriptions of 20 to 1024 characters are clean, 1025 is an error, and 19 is only a warning |
| SkillValidator.SkillDirs | skills/validate_skills.py:102-103 | a name is selected exactly when some entry with that name is a directory, not hidden, and not one of `__pycache__`, `venv`, `env`, `scripts` |
| SkillValidator.ExitStatus | skills/validate_skills.py:105-137 | the status is 0 or 1, and 0 exactly when every requested path exists and validates with no error |
| SkillValidator.Main | skills/validate_skills.py:99-137 | a named skill decides the status alone; otherwise every selected directory must pass |
| SkillValidator.PassesIgnoresFolder | skills/validate_skills.py:113-123 | whether a skill passes does not depend on its folder name |
| SkillValidator.ExitIgnoresWarnings | skills/validate_skills.py:105-137 | renaming the folders, which only affects warnings, leaves the exit status unchanged |

## Left out

- The video SDK itself is not modelled: `connect`, `get_collection`, `get_videos`, `get_video`, `upload`, `search`, `index_scenes`, `index_spoken_words`, `list_scene_index`, `compile`, `get_transcript`, `generate_transcript` and `get_transcript_text`. Each call is answered from the script, and the network is not modelled.
- The arguments passed to the SDK are not recorded in the trace. This covers query, search and index types, result and score thresholds, the extraction configuration (including threshold 20) and the prompt, because the backend answers do not depend on them in the model.
- SceneIndex.Create: the reply leaves out the constant success message. The trace does not distinguish time-based from shot-based extraction.
- SceneIndex.EnsureSceneIndex: the pause of ten seconds is the recorded `Sleep` call only. Real time is not modelled.
- Formatter.SceneHits: start, end and score are carried unrounded, because `round(..., 1)` and `round(..., 3)` are floating-point presentation.
- Formatter.SearchHits: start, end and score are carried unrounded, for the same reason.
- Text.Lower: folds ASCII letters only. Python's `str.lower` folds all of Unicode. For every phrase the classifiers and readiness test look for, the answer is the same, since no non-ASCII character lowers onto those phrases.
- Search.ParseSearchType: the ASCII folding differs from Python on the Kelvin sign, which Python lowers to `k`, so a spelling of "keyword" with it is rejected here.
- Search.ParseIndexType: the ASCII folding differs from Python on the Kelvin sign in the same way, so a spelling of "spoken_word" with it is rejected here with `INVALID_INDEX_TYPE`, while the code accepts it.
- Search.Validate: an explicit `None` search or index type makes the code raise `AttributeError` at `.lower()`, outside any handler, so the script ends with a traceback. A string cannot be `None` in the model, and no such crash is modelled.
- SceneIndex.Create: an explicit `None` prompt or extraction type is echoed as `null` by the code; the model has no `None` string and echoes the given text.
- YouTube.IsIdChar: `\w` is taken as the ASCII word characters. Python 3 also accepts Unicode letters and digits there.
- `load_env_files` and `.env` loading are left out, because they are environment and file I/O.
- The `main` functions of the three video skills are left out, because they are JSON parsing of arguments, printing and exit codes. This includes their `MISSING_QUERY`, `INVALID_JSON` and `NO_INPUT` replies.
- skills/scripts/upload.py is not part of this model. It dispatches straight to the SDK.
- The `index_id` argument of the scene-index skill is accepted and never used, so it is absent from the request.
- The search skill computes `is_new` but never reports it. The model proves its meaning in `Resolver.UploadOnlyWithoutMatch` and does not return it.
- Python attribute probing (`getattr`, `vars`, `str(idx)`) is modelled as optional fields of the entities. An attribute that is present with the value `None` is treated as absent. The code differs in three places:
  - `str(getattr(v, 'name', ''))` gives the text "None" for a `None` name or source, so an extracted id "None" would match such a video. `Resolver.Descriptor` uses "" instead.
  - `getattr(video, 'name', video_id)` reports `null` for a `None` name. The model reports the video id.
  - `getattr(shot, 'video_id', video_id)` reports `null` for a `None` video id on a shot. The model reports the resolved video's id.
- Transcript segments are carried as opaque records.
- YAML parsing is a parameter of the validator. The model reads only three things from it: a mapping, a non-mapping value or a parse error.
- The validator's compile check of `scripts/*.py` is an input, namely the list of files that do not compile and their error texts.
- SkillValidator.Main: the "Cannot find skills directory" exit and the printed report are not modelled. Path existence and directory listings are inputs.
- Concurrency is not modelled, including the duplicate upload two simultaneous resolutions of one URL can cause.

=== FILE: backend.dfy ===
/** The video backend as the skills see it. The SDK is not modelled: each
    call the skills issue is answered from a script fixed in advance, and
    every operation reports the calls it issued, in order, as a trace. */
module Backend {

  datatype Option<+T> = None | Some(value: T)
  {
    function GetOr(default: T): T
    {
      match this
      case Some(v) => v
      case None => default
    }
  }

  /** The answer to one backend call: a value, or an exception carrying the
      text `str(e)` would show. */
  datatype Outcome<+T> = Ok(value: T) | Raised(message: string)

  /** The backend calls a skill can issue. `Sleep` is the poller's pause
      between two readiness checks; it is recorded so that the number of
      waits can be counted. */
  datatype Call =
    | Connect
    | GetVideos
    | GetVideo(id: string)
    | Upload(url: string)
    | ListSceneIndex
    | IndexScenes
    | IndexSpokenWords
    | Sleep
    | VideoSearch
    | CollectionSearch
    | Compile
    | GetTranscript(force: bool)
    | GenerateTranscript
    | GetTranscriptText

  /** How many times `c` was issued. */
  function Count(trace: seq<Call>, c: Call): nat
  {
    multiset(trace)[c]
  }

  /** Counts add up over concatenated traces. */
  lemma CountConcat(a: seq<Call>, b: seq<Call>)
    ensures forall c :: Count(a + b, c) == Count(a, c) + Count(b, c)
  {
    assert multiset(a + b) == multiset(a) + multiset(b);
  }

  /** An operation's result together with the calls it issued. */
  datatype Step<+T> = Step(outcome: Outcome<T>, trace: seq<Call>)

  /** What a skill prints, together with every call it issued. */
  datatype Response<+R> = Response(reply: R, trace: seq<Call>)

  /** A video of the collection. Attributes the SDK may leave out are
      optional; `name` and `source` are what URL matching looks at. */
  datatype Video = Video(
    id: string,
    name: Option<string>,
    source: Option<string>,
    length: Option<real>,
    duration: Option<real>)

  /** A search hit as the backend returns it. Every attribute read through
      `getattr` with a default is optional. */
  datatype Shot = Shot(
    videoId: Option<string>,
    start: real,
    end: real,
    text: Option<string>,
    streamUrl: Option<string>,
    searchScore: Option<real>,
    score: Option<real>,
    relevanceScore: Option<real>,
    confidence: Option<real>)

  /** One scene index of a video: its `status` attribute if it has one,
      `repr` standing for `str(idx)` otherwise. */
  datatype IndexDesc = IndexDesc(
    id: Option<string>,
    status: Option<string>,
    repr: string,
    created: Option<string>)

  /** The answer to `list_scene_index()`: the indexes, an `AttributeError`
      (the SDK has no such operation), or any other exception. */
  datatype Listing =
    | Listed(indexes: seq<IndexDesc>)
    | Unsupported
    | ListFailed(message: string)

  /** One timed segment of a transcript. */
  datatype Segment = Segment(start: real, end: real, text: string)

  /** The process environment each skill inspects before doing anything:
      whether the SDK can be imported, and the API key ("" when unset). */
  datatype Env = Env(sdkInstalled: bool, apiKey: string)

  /** Scripted answers of the collection-level calls, each issued at most
      once per request: `connect` + `get_collection`, `get_videos`,
      `get_video(id)` and `upload(url)`. */
  datatype Collection = Collection(
    connect: Outcome<()>,
    videos: Outcome<seq<Video>>,
    lookup: Outcome<Option<Video>>,
    upload: Outcome<Video>)
}

=== FILE: errors.dfy ===
/** Error reporting shared by the video skills: the stable error codes, the
    ordered input checks every skill runs before connecting, and the ordered
    substring tables that turn a backend exception into a code. */
module Errors {
  import opened Text
  import opened Backend

  datatype Code =
    | MissingDependency
    | MissingApiKey
    | InvalidAction
    | MissingQuery
    | MissingVideoId
    | InvalidFormat
    | InvalidSearchType
    | InvalidIndexType
    | VideoNotFound
    | NotIndexed
    | Processing
    | IndexingTimeout
    | NoTranscript
    | SceneIndexError
    | SearchError
    | TranscriptError

  /** The `error` field as the skills print it. */
  function Name(c: Code): string
  {
    match c
    case MissingDependency => "MISSING_DEPENDENCY"
    case MissingApiKey => "MISSING_API_KEY"
    case InvalidAction => "INVALID_ACTION"
    case MissingQuery => "MISSING_QUERY"
    case MissingVideoId => "MISSING_VIDEO_ID"
    case InvalidFormat => "INVALID_FORMAT"
    case InvalidSearchType => "INVALID_SEARCH_TYPE"
    case InvalidIndexType => "INVALID_INDEX_TYPE"
    case VideoNotFound => "VIDEO_NOT_FOUND"
    case NotIndexed => "NOT_INDEXED"
    case Processing => "PROCESSING"
    case IndexingTimeout => "INDEXING_TIMEOUT"
    case NoTranscript => "NO_TRANSCRIPT"
    case SceneIndexError => "SCENE_INDEX_ERROR"
    case SearchError => "SEARCH_ERROR"
    case TranscriptError => "TRANSCRIPT_ERROR"
  }

  /** An unsuccessful reply: its error code and message. */
  datatype Failure = Failure(code: Code, message: string)

  const DependencyMessage: string := "Install videodb: pip install videodb"
  const ApiKeyMessage: string := "Set VIDEODB_API_KEY environment variable"

  /** The reply for a video id the collection does not know. */
  function NotFound(videoId: string): Failure
  {
    Failure(VideoNotFound, "Video '" + videoId + "' not found")
  }

  /** One input check: whether it passes, and what is reported if not. */
  datatype Check = Check(passes: bool, failure: Failure)

  /** The checks are run in order and the first failing one is reported. */
  function FirstFailure(checks: seq<Check>): (r: Option<Failure>)
    ensures r.None? <==> forall i :: 0 <= i < |checks| ==> checks[i].passes
    ensures forall k :: 0 <= k < |checks| && !checks[k].passes && (forall j :: 0 <= j < k ==> checks[j].passes) ==>
              r == Some(checks[k].failure)
  {
    if checks == [] then None
    else if !checks[0].passes then Some(checks[0].failure)
    else
      var rest := FirstFailure(checks[1..]);
      assert forall k :: 1 <= k < |checks| ==> checks[k] == checks[1..][k - 1];
      rest
  }

  /** Five checks written out: the first failing one in order. */
  lemma FirstOfFive(checks: seq<Check>)
    requires |checks| == 5
    ensures FirstFailure(checks) ==
              if !checks[0].passes then Some(checks[0].failure)
              else if !checks[1].passes then Some(checks[1].failure)
              else if !checks[2].passes then Some(checks[2].failure)
              else if !checks[3].passes then Some(checks[3].failure)
              else if !checks[4].passes then Some(checks[4].failure)
              else None
  {
    assert checks[1..][1..][1..][1..][1..] == [];
  }

  /** The SDK can be imported and an API key is set. */
  predicate EnvOk(env: Env)
  {
    env.sdkInstalled && env.apiKey != ""
  }

  /** The two environment checks that open every skill. */
  function EnvChecks(env: Env): seq<Check>
  {
    [ Check(env.sdkInstalled, Failure(MissingDependency, DependencyMessage)),
      Check(env.apiKey != "", Failure(MissingApiKey, ApiKeyMessage)) ]
  }

  /** One row of a classification table: if the lower-cased exception text
      contains any of `needles`, report `code` with the fixed `message`. */
  datatype Rule = Rule(needles: seq<string>, code: Code, message: string)

  predicate Fires(rule: Rule, raw: string)
  {
    exists i :: 0 <= i < |rule.needles| && ContainsFolded(raw, rule.needles[i])
  }

  /** The `except Exception as e` block: the first rule that fires decides
      the reply; when none does, `fallback` is reported with the raw text
      `str(e)`. */
  function Classify(rules: seq<Rule>, fallback: Code, raw: string): (r: Failure)
    ensures forall k :: 0 <= k < |rules| && Fires(rules[k], raw) && (forall j :: 0 <= j < k ==> !Fires(rules[j], raw)) ==>
              r == Failure(rules[k].code, rules[k].message)
    ensures (forall k :: 0 <= k < |rules| ==> !Fires(rules[k], raw)) ==> r == Failure(fallback, raw)
  {
    if rules == [] then Failure(fallback, raw)
    else if Fires(rules[0], raw) then Failure(rules[0].code, rules[0].message)
    else
      var rest := Classify(rules[1..], fallback, raw);
      assert forall k :: 1 <= k < |rules| ==> rules[k] == rules[1..][k - 1];
      rest
  }

  /** Classification depends on the text only up to case: lower-casing the
      exception text first changes no code. */
  lemma {:induction false} ClassifyIgnoresCase(rules: seq<Rule>, fallback: Code, raw: string)
    ensures Classify(rules, fallback, Lower(raw)).code == Classify(rules, fallback, raw).code
    decreases |rules|
  {
    LowerIdempotent(raw);
    if rules != [] {
      assert Fires(rules[0], Lower(raw)) == Fires(rules[0], raw);
      ClassifyIgnoresCase(rules[1..], fallback, raw);
    }
  }
}

=== FILE: formatter.dfy ===
/** Result shaping shared by the scene-index and search skills: one output
    record per backend shot, in backend order, a score read through a fixed
    list of attribute names, and a compiled stream only for non-empty
    results. */
module Formatter {
  import opened Backend

  /** The score attributes of a shot in the order they are tried:
      `search_score`, `score`, `relevance_score`, `confidence`. */
  function ScoreCandidates(s: Shot): seq<Option<real>>
  {
    [s.searchScore, s.score, s.relevanceScore, s.confidence]
  }

  /** The first present value of `xs`. */
  function FirstPresent(xs: seq<Option<real>>): (r: Option<real>)
    ensures r.None? <==> forall i :: 0 <= i < |xs| ==> xs[i].None?
    ensures forall k :: 0 <= k < |xs| && xs[k].Some? && (forall j :: 0 <= j < k ==> xs[j].None?) ==> r == xs[k]
  {
    if xs == [] then None
    else if xs[0].Some? then xs[0]
    else
      var rest := FirstPresent(xs[1..]);
      assert forall k :: 1 <= k < |xs| ==> xs[k] == xs[1..][k - 1];
      rest
  }

  /** The score loop: the first attribute that is present, in priority
      order, and None only when all four are absent. */
  function ScoreOf(s: Shot): (r: Option<real>)
    ensures s.searchScore.Some? ==> r == s.searchScore
    ensures s.searchScore.None? && s.score.Some? ==> r == s.score
    ensures s.searchScore.None? && s.score.None? && s.relevanceScore.Some? ==> r == s.relevanceScore
    ensures s.searchScore.None? && s.score.None? && s.relevanceScore.None? ==> r == s.confidence
  {
    var xs := ScoreCandidates(s);
    assert xs[0] == s.searchScore && xs[1] == s.score && xs[2] == s.relevanceScore && xs[3] == s.confidence;
    FirstPresent(xs)
  }

  /** One scene-index output record. */
  datatype SceneHit = SceneHit(
    start: real,
    end: real,
    description: string,
    score: Option<real>,
    streamUrl: Option<string>)

  /** One search output record; `videoId` is the shot's own video when it
      names one. */
  datatype SearchHit = SearchHit(
    videoId: string,
    start: real,
    end: real,
    text: string,
    score: Option<real>,
    streamUrl: Option<string>)

  function SceneHitOf(s: Shot): SceneHit
  {
    SceneHit(s.start, s.end, s.text.GetOr(""), ScoreOf(s), s.streamUrl)
  }

  function SearchHitOf(s: Shot, fallback: string): SearchHit
  {
    SearchHit(s.videoId.GetOr(fallback), s.start, s.end, s.text.GetOr(""), ScoreOf(s), s.streamUrl)
  }

  /** The scene-index result list: record `i` comes from shot `i`. */
  function SceneHits(shots: seq<Shot>): (r: seq<SceneHit>)
    ensures |r| == |shots|
    ensures forall i :: 0 <= i < |shots| ==>
              && r[i].start == shots[i].start && r[i].end == shots[i].end
              && r[i].score == ScoreOf(shots[i])
              && r[i].description == shots[i].text.GetOr("")
              && r[i].streamUrl == shots[i].streamUrl
  {
    if shots == [] then []
    else
      var rest := SceneHits(shots[1..]);
      assert forall i :: 1 <= i < |shots| ==> shots[i] == shots[1..][i - 1];
      [SceneHitOf(shots[0])] + rest
  }

  /** The search result list: record `i` comes from shot `i`, and its
      video is the shot's own or else `fallback`, the resolved video. */
  function SearchHits(shots: seq<Shot>, fallback: string): (r: seq<SearchHit>)
    ensures |r| == |shots|
    ensures forall i :: 0 <= i < |shots| ==>
              && r[i].videoId == (if shots[i].videoId.Some? then shots[i].videoId.value else fallback)
              && r[i].start == shots[i].start && r[i].end == shots[i].end
              && r[i].score == ScoreOf(shots[i])
              && r[i].text == shots[i].text.GetOr("")
              && r[i].streamUrl == shots[i].streamUrl
  {
    if shots == [] then []
    else
      var rest := SearchHits(shots[1..], fallback);
      assert forall i :: 1 <= i < |shots| ==> shots[i] == shots[1..][i - 1];
      [SearchHitOf(shots[0], fallback)] + rest
  }

  /** The compiled stream URL: asked for exactly when there is at least
      one shot, and None otherwise. */
  function CompiledUrl(shots: seq<Shot>, compile: Outcome<string>): (r: Step<Option<string>>)
    ensures r.trace == (if shots == [] then [] else [Compile])
    ensures r.outcome.Ok? && r.outcome.value.Some? ==> shots != [] && compile == Ok(r.outcome.value.value)
    ensures r.outcome.Raised? ==> shots != [] && compile.Raised? && r.outcome.message == compile.message
    ensures shots != [] && compile.Ok? ==> r.outcome == Ok(Some(compile.value))
    ensures shots == [] ==> r.outcome == Ok(None)
  {
    if shots == [] then Step(Ok(None), [])
    else
      match compile
      case Ok(u) => Step(Ok(Some(u)), [Compile])
      case Raised(m) => Step(Raised(m), [Compile])
  }
}

=== FILE: resolver.dfy ===
/** Find-or-upload resolution of a video reference (`get_video_from_url`
    and the `video_id` / `url` branch around it), the same in the three
    video skills. */
module Resolver {
  import opened Text
  import opened Backend
  import opened YouTube

  /** The video's name followed by its source, each empty when absent:
      the text URL matching searches for the extracted id. */
  function Descriptor(v: Video): string
  {
    v.name.GetOr("") + v.source.GetOr("")
  }

  predicate Matches(v: Video, id: string)
  {
    Contains(Descriptor(v), id)
  }

  /** Linear scan from `from`: the first video whose descriptor contains
      `id`. */
  function FirstMatch(vs: seq<Video>, id: string, from: nat): (r: Option<nat>)
    requires from <= |vs|
    ensures r.Some? ==> from <= r.value < |vs| && Matches(vs[r.value], id)
    ensures r.Some? ==> forall j :: from <= j < r.value ==> !Matches(vs[j], id)
    ensures r.None? ==> forall j :: from <= j < |vs| ==> !Matches(vs[j], id)
    decreases |vs| - from
  {
    if from == |vs| then None
    else if Matches(vs[from], id) then Some(from)
    else FirstMatch(vs, id, from + 1)
  }

  /** `vs[k]` is the first video of the collection matching the id taken
      from `url`. */
  predicate IsFirstMatch(url: string, vs: seq<Video>, k: nat)
  {
    && ExtractYoutubeId(url).Some?
    && k < |vs|
    && Matches(vs[k], ExtractYoutubeId(url).value)
    && forall j :: 0 <= j < k ==> !Matches(vs[j], ExtractYoutubeId(url).value)
  }

  /** No video of the collection can stand for `url`: either no id could
      be extracted, or no descriptor contains it. */
  predicate NoneMatch(url: string, vs: seq<Video>)
  {
    || ExtractYoutubeId(url).None?
    || forall j :: 0 <= j < |vs| ==> !Matches(vs[j], ExtractYoutubeId(url).value)
  }

  /** The index of the video `get_video_from_url` returns from the
      collection listing, if any. */
  function MatchIndex(url: string, vs: seq<Video>): (r: Option<nat>)
    ensures r.Some? ==> IsFirstMatch(url, vs, r.value)
    ensures r.None? <==> NoneMatch(url, vs)
  {
    match ExtractYoutubeId(url)
    case None => None
    case Some(id) => FirstMatch(vs, id, 0)
  }

  /** The resolved video, and `is_new`: whether it was uploaded by this
      call. */
  datatype Resolved = Resolved(video: Video, isNew: bool)

  /** `get_video_from_url`: list the collection, return the first video
      matching the URL's id, and upload the URL only when none matches. */
  function FromUrl(url: string, c: Collection): (r: Step<Resolved>)
    ensures c.videos.Raised? ==> r == Step(Raised(c.videos.message), [GetVideos])
    ensures c.videos.Ok? && !NoneMatch(url, c.videos.value) ==>
              && r.trace == [GetVideos]
              && var k := MatchIndex(url, c.videos.value).value;
                 IsFirstMatch(url, c.videos.value, k)
                 && r.outcome == Ok(Resolved(c.videos.value[k], false))
    ensures c.videos.Ok? && NoneMatch(url, c.videos.value) ==>
              && r.trace == [GetVideos, Upload(url)]
              && r.outcome == (match c.upload
                               case Ok(v) => Ok(Resolved(v, true))
                               case Raised(m) => Raised(m))
  {
    match c.videos
    case Raised(m) => Step(Raised(m), [GetVideos])
    case Ok(vs) =>
      match MatchIndex(url, vs)
      case Some(k) => Step(Ok(Resolved(vs[k], false)), [GetVideos])
      case None =>
        match c.upload
        case Ok(v) => Step(Ok(Resolved(v, true)), [GetVideos, Upload(url)])
        case Raised(m) => Step(Raised(m), [GetVideos, Upload(url)])
  }

  /** Upload happens at most once, and exactly when nothing in the
      collection matches; `is_new` reports it. */
  lemma UploadOnlyWithoutMatch(url: string, c: Collection)
    ensures var r := FromUrl(url, c);
            && Count(r.trace, Upload(url)) <= 1
            && (Upload(url) in r.trace <==> c.videos.Ok? && NoneMatch(url, c.videos.value))
            && (r.outcome.Ok? ==> (r.outcome.value.isNew <==> Upload(url) in r.trace))
  {
  }

  /** The video a request refers to, and the id the skill reports for it
      (`video.id` after URL resolution, the given id otherwise). */
  datatype Located = Located(video: Option<Video>, videoId: string, isNew: bool)

  /** A non-empty URL is resolved by find-or-upload and the reported id
      becomes the resolved video's; otherwise the video is looked up by
      the given id, which may find nothing. */
  function Locate(videoId: string, url: string, c: Collection): (r: Step<Located>)
    ensures url == "" ==> r.trace == [GetVideo(videoId)]
    ensures url == "" ==> r.outcome == (match c.lookup
                                        case Ok(v) => Ok(Located(v, videoId, false))
                                        case Raised(m) => Raised(m))
    ensures url != "" ==> r.trace == FromUrl(url, c).trace
    ensures url != "" ==> r.outcome.Ok? == FromUrl(url, c).outcome.Ok?
    ensures url != "" && r.outcome.Raised? ==> r.outcome == Raised(FromUrl(url, c).outcome.message)
    ensures url != "" && r.outcome.Ok? ==>
              var v := FromUrl(url, c).outcome.value;
              r.outcome.value == Located(Some(v.video), v.video.id, v.isNew)
  {
    if url != "" then
      var s := FromUrl(url, c);
      match s.outcome
      case Raised(m) => Step(Raised(m), s.trace)
      case Ok(v) => Step(Ok(Located(Some(v.video), v.video.id, v.isNew)), s.trace)
    else
      match c.lookup
      case Raised(m) => Step(Raised(m), [GetVideo(videoId)])
      case Ok(v) => Step(Ok(Located(v, videoId, false)), [GetVideo(videoId)])
  }

  /** Resolution issues only collection calls: one lookup by id, or a
      listing followed by at most one upload of the given URL. */
  lemma LocateCalls(videoId: string, url: string, c: Collection)
    ensures var r := Locate(videoId, url, c);
            && 1 <= |r.trace| <= 2
            && forall x :: x in r.trace ==> x == GetVideos || x == GetVideo(videoId) || x == Upload(url)
  {
  }

  /** Resolution never issues anything but collection calls. */
  lemma LocateCounts(videoId: string, url: string, c: Collection)
    ensures forall x: Call :: !x.GetVideos? && !x.GetVideo? && !x.Upload? ==> Count(Locate(videoId, url, c).trace, x) == 0
  {
    LocateCalls(videoId, url, c);
  }

  /** A short link whose id an existing video's descriptor contains
      resolves to that video without uploading. */
  lemma ShortLinkResolvesToExisting(v: Video, rest: seq<Video>, c: Collection)
    requires Matches(v, "abc123")
    requires c.videos == Ok([v] + rest)
    ensures FromUrl(ShortLinkSample, c) == Step(Ok(Resolved(v, false)), [GetVideos])
  {
    ShortLinkExample();
    assert ([v] + rest)[0] == v;
  }
}

=== FILE: scene_index.dfy ===
/** The scene-index skill (`scene_index`): create, list or search the visual
    scene indexes of one video. A search on a video without a ready scene
    index creates one, waits for it with a bounded poll, and searches once
    more. */
module SceneIndex {
  import opened Text
  import opened Backend
  import opened Errors
  import opened Resolver
  import opened Formatter

  const Actions: seq<string> := ["create", "search", "list"]
  const DefaultPrompt: string := "Describe the visual content including people, objects, and actions."

  /** Readiness checks made after creating an index, each after a pause. */
  const MaxPolls: nat := 30

  /** The keyword arguments of `scene_index`; "" stands for an absent
      or None video id, URL or query. `index_id` is accepted and never used. */
  datatype Request = Request(
    videoId: string,
    url: string,
    action: string,
    query: string,
    prompt: string,
    extractionType: string,
    timeInterval: int,
    frameCount: int)

  /** The defaults of the keyword arguments. */
  function Defaults(videoId: string, url: string, query: string): Request
  {
    Request(videoId, url, "search", query, DefaultPrompt, "time_based", 5, 3)
  }

  /** Scripted answers: the collection calls, `index_scenes`,
      the i-th `list_scene_index`, the i-th `video.search`, and
      `compile`. */
  datatype Script = Script(
    collection: Collection,
    createIndex: Outcome<()>,
    listing: nat -> Listing,
    search: nat -> Outcome<seq<Shot>>,
    compile: Outcome<string>)

  /** One entry of the `list` action's reply. */
  datatype IndexEntry = IndexEntry(id: string, created: Option<string>)

  datatype Reply =
    | Failed(failure: Failure)
    | Created(videoId: string, extractionType: string, timeInterval: Option<int>, frameCount: int, prompt: string)
    | Indexes(videoId: string, entries: seq<IndexEntry>)
    | ListUnavailable(videoId: string)
    | Hits(videoId: string, query: string, results: seq<SceneHit>, total: nat, compiled: Option<string>)

  // Input validation

  const ActionMessage: string := "Action must be one of: ['create', 'search', 'list']"
  const QueryMessage: string := "query is required for search action"
  const VideoIdMessage: string := "video_id or url is required"

  function Checks(env: Env, req: Request): seq<Check>
  {
    EnvChecks(env) +
    [ Check(req.action in Actions, Failure(InvalidAction, ActionMessage)),
      Check(!(req.action == "search" && req.query == ""), Failure(MissingQuery, QueryMessage)),
      Check(req.videoId != "" || req.url != "", Failure(MissingVideoId, VideoIdMessage)) ]
  }

  /** The checks made before any connection, in this order. */
  function Validate(env: Env, req: Request): (r: Option<Failure>)
    ensures !env.sdkInstalled ==> r == Some(Failure(MissingDependency, DependencyMessage))
    ensures env.sdkInstalled && env.apiKey == "" ==> r == Some(Failure(MissingApiKey, ApiKeyMessage))
    ensures EnvOk(env) && req.action !in Actions ==> r == Some(Failure(InvalidAction, ActionMessage))
    ensures EnvOk(env) && req.action == "search" && req.query == "" ==> r == Some(Failure(MissingQuery, QueryMessage))
    ensures (EnvOk(env) && req.action in Actions && !(req.action == "search" && req.query == "")
             && req.videoId == "" && req.url == "") ==> r == Some(Failure(MissingVideoId, VideoIdMessage))
    ensures r.None? <==> EnvOk(env) && req.action in Actions && !(req.action == "search" && req.query == "")
                         && (req.videoId != "" || req.url != "")
  {
    var cs := Checks(env, req);
    assert cs[0].passes == env.sdkInstalled && cs[1].passes == (env.apiKey != "");
    assert cs[2].passes == (req.action in Actions);
    assert cs[3].passes == !(req.action == "search" && req.query == "");
    assert cs[4].passes == (req.videoId != "" || req.url != "");
    FirstOfFive(cs);
    FirstFailure(cs)
  }

  // Readiness

  /** The text readiness is judged on: the index's status when it has
      one, its printed form otherwise. */
  function StatusText(d: IndexDesc): string
  {
    d.status.GetOr(d.repr)
  }

  /** A status counts as ready when it mentions "done" or "ready", in any
      case. */
  predicate IsReadyStatus(status: string)
  {
    ContainsFolded(status, "done") || ContainsFolded(status, "ready")
  }

  function AnyReady(ds: seq<IndexDesc>): (r: bool)
    ensures r <==> exists i :: 0 <= i < |ds| && IsReadyStatus(StatusText(ds[i]))
  {
    if ds == [] then false
    else
      var rest := AnyReady(ds[1..]);
      assert forall i :: 1 <= i < |ds| ==> ds[i] == ds[1..][i - 1];
      IsReadyStatus(StatusText(ds[0])) || rest
  }

  /** `get_ready_index`: some listed index is ready; a listing that fails
      in any way counts as not ready. */
  function IsReady(l: Listing): (r: bool)
    ensures r <==> l.Listed? && exists i :: 0 <= i < |l.indexes| && IsReadyStatus(StatusText(l.indexes[i]))
  {
    l.Listed? && AnyReady(l.indexes)
  }

  /** The calls of `n` polls: each a pause followed by a readiness
      check. */
  function Waits(n: nat): (r: seq<Call>)
    ensures |r| == 2 * n
  {
    seq(2 * n, i requires 0 <= i < 2 * n => if i % 2 == 0 then Sleep else ListSceneIndex)
  }

  /** `n` polls issue exactly `n` pauses and `n` readiness checks and
      nothing else. */
  lemma {:induction false} WaitsCount(n: nat)
    ensures multiset(Waits(n)) == multiset{}[Sleep := n][ListSceneIndex := n]
  {
    if n > 0 {
      WaitsCount(n - 1);
      assert Waits(n) == [Sleep, ListSceneIndex] + Waits(n - 1);
    }
  }

  /** The wait loop after `index_scenes` over the answers `ready(i)` of
      the readiness checks, from poll `k+1` on: the number of polls made
      up to the first ready answer, or None when all polls up to
      `MaxPolls` find no ready index. */
  function FirstReady(ready: nat -> bool, k: nat): (r: Option<nat>)
    requires k <= MaxPolls
    ensures r.Some? ==> 0 < r.value <= MaxPolls - k && ready(k + r.value)
    ensures r.Some? ==> forall j :: k < j < k + r.value ==> !ready(j)
    ensures r.None? <==> forall j :: k < j <= MaxPolls ==> !ready(j)
    decreases MaxPolls - k
  {
    if k == MaxPolls then None
    else if ready(k + 1) then Some(1)
    else
      match FirstReady(ready, k + 1)
      case None => None
      case Some(n) => Some(n + 1)
  }

  /** The wait loop on the scripted listings. */
  function Poll(listing: nat -> Listing): (r: Option<nat>)
    ensures r.Some? ==> 0 < r.value <= MaxPolls
  {
    FirstReady((i: nat) => IsReady(listing(i)), 0)
  }

  /** Polling stops at the first ready listing, and gives up exactly when
      none of the `MaxPolls` listings is ready. */
  lemma PollFindsFirstReady(listing: nat -> Listing)
    ensures var r := Poll(listing);
            && (r.Some? ==> IsReady(listing(r.value)))
            && (r.Some? ==> forall j :: 0 < j < r.value ==> !IsReady(listing(j)))
            && (r.None? <==> forall j :: 0 < j <= MaxPolls ==> !IsReady(listing(j)))
  {
    var ready := (i: nat) => IsReady(listing(i));
    assert forall j: nat :: ready(j) == IsReady(listing(j));
    assert Poll(listing) == FirstReady(ready, 0);
  }

  /** The calls after a successful creation and `n` polls. */
  lemma CreatedCounts(n: nat)
    ensures var t := [ListSceneIndex, IndexScenes] + Waits(n);
            && Count(t, ListSceneIndex) == 1 + n && Count(t, Sleep) == n && Count(t, IndexScenes) == 1
            && Count(t, VideoSearch) == 0 && Count(t, Compile) == 0 && Count(t, Connect) == 0
  {
    var p := [ListSceneIndex, IndexScenes];
    WaitsCount(n);
    assert multiset(p + Waits(n)) == multiset(p) + multiset(Waits(n));
    assert multiset(p) == multiset{ListSceneIndex, IndexScenes};
  }

  /** `ensure_scene_index`: return at once when an index is already ready;
      otherwise create one, then poll at most `MaxPolls` times. */
  function EnsureSceneIndex(listing: nat -> Listing, create: Outcome<()>): (r: Step<bool>)
    ensures IsReady(listing(0)) ==> r == Step(Ok(true), [ListSceneIndex])
    ensures !IsReady(listing(0)) && create.Raised? ==> r == Step(Raised(create.message), [ListSceneIndex, IndexScenes])
    ensures !IsReady(listing(0)) && create.Ok? ==>
              && r.outcome == Ok(Poll(listing).Some?)
              && r.trace == [ListSceneIndex, IndexScenes] + Waits(Poll(listing).GetOr(MaxPolls))
  {
    if IsReady(listing(0)) then Step(Ok(true), [ListSceneIndex])
    else
      match create
      case Raised(m) => Step(Raised(m), [ListSceneIndex, IndexScenes])
      case Ok(_) =>
        match Poll(listing)
        case None => Step(Ok(false), [ListSceneIndex, IndexScenes] + Waits(MaxPolls))
        case Some(n) => Step(Ok(true), [ListSceneIndex, IndexScenes] + Waits(n))
  }

  /** `ensure_scene_index` reports false exactly when no index was ready
      and a successful creation was followed by `MaxPolls` listings none of
      which was ready; true only when some listing was ready. */
  lemma EnsureSceneIndexReady(listing: nat -> Listing, create: Outcome<()>)
    ensures var r := EnsureSceneIndex(listing, create);
            && (r.outcome == Ok(false) <==>
                  !IsReady(listing(0)) && create.Ok? && forall i :: 0 < i <= MaxPolls ==> !IsReady(listing(i)))
            && (r.outcome == Ok(true) ==> exists i :: 0 <= i <= MaxPolls && IsReady(listing(i)))
  {
    PollFindsFirstReady(listing);
    var p := Poll(listing);
    if !IsReady(listing(0)) && create.Ok? && p.Some? {
      assert IsReady(listing(p.value));
    }
  }

  /** The calls `ensure_scene_index` can issue: one listing, then at most
      one creation and `MaxPolls` further listings, nothing else; a
      timeout costs every one of them. */
  lemma EnsureSceneIndexCalls(listing: nat -> Listing, create: Outcome<()>)
    ensures var r := EnsureSceneIndex(listing, create);
            && Count(r.trace, ListSceneIndex) <= 1 + MaxPolls
            && Count(r.trace, IndexScenes) == (if IsReady(listing(0)) then 0 else 1)
            && Count(r.trace, Sleep) <= MaxPolls
            && Count(r.trace, VideoSearch) == 0 && Count(r.trace, Compile) == 0 && Count(r.trace, Connect) == 0
            && (r.outcome == Ok(false) ==> Count(r.trace, ListSceneIndex) == 1 + MaxPolls && Count(r.trace, Sleep) == MaxPolls)
  {
    var r := EnsureSceneIndex(listing, create);
    if IsReady(listing(0)) {
      assert r.trace == [ListSceneIndex];
    } else if create.Raised? {
      assert r.trace == [ListSceneIndex, IndexScenes];
    } else {
      var n := Poll(listing).GetOr(MaxPolls);
      assert n <= MaxPolls && (r.outcome == Ok(false) ==> n == MaxPolls);
      CreatedCounts(n);
    }
  }

  // Search with a single recovery

  /** The exception raised when the first search returns no shots. */
  const NoResultsMessage: string := "No results - may need indexing"

  /** The exception texts that make the first search worth retrying. */
  predicate NeedsIndex(raw: string)
  {
    ContainsFolded(raw, "not indexed") || ContainsFolded(raw, "no scene") || ContainsFolded(raw, "no results")
  }

  lemma NoResultsNeedsIndex()
    ensures NeedsIndex(NoResultsMessage)
  {
    assert OccursAt(Lower(NoResultsMessage), "no results", 0);
  }

  /** The first attempt's result triggers recovery: no shots at all, or an
      exception that mentions a missing index. */
  predicate Recovers(first: Outcome<seq<Shot>>)
  {
    (first.Ok? && first.value == []) || (first.Raised? && NeedsIndex(first.message))
  }

  datatype SearchEnd = Found(shots: seq<Shot>) | TimedOut

  /** The second search's result is final, empty or not. */
  function Final(o: Outcome<seq<Shot>>): Outcome<SearchEnd>
  {
    match o
    case Ok(shots) => Ok(Found(shots))
    case Raised(m) => Raised(m)
  }

  /** The search block: search; on a recoverable result ensure an index
      and search exactly once more; re-raise anything else. */
  function SearchScenes(s: Script): (r: Step<SearchEnd>)
    ensures !Recovers(s.search(0)) ==> r == Step(Final(s.search(0)), [VideoSearch])
    ensures Recovers(s.search(0)) ==>
              var e := EnsureSceneIndex(s.listing, s.createIndex);
              && (e.outcome.Raised? ==> r == Step(Raised(e.outcome.message), [VideoSearch] + e.trace))
              && (e.outcome == Ok(false) ==> r == Step(Ok(TimedOut), [VideoSearch] + e.trace))
              && (e.outcome == Ok(true) ==> r == Step(Final(s.search(1)), [VideoSearch] + e.trace + [VideoSearch]))
  {
    var first := s.search(0);
    if !Recovers(first) then Step(Final(first), [VideoSearch])
    else
      var e := EnsureSceneIndex(s.listing, s.createIndex);
      match e.outcome
      case Raised(m) => Step(Raised(m), [VideoSearch] + e.trace)
      case Ok(ready) =>
        if ready then Step(Final(s.search(1)), [VideoSearch] + e.trace + [VideoSearch])
        else Step(Ok(TimedOut), [VideoSearch] + e.trace)
  }

  /** The search block searches once, or twice when the index it waited
      for became ready; it never compiles, and the second search is the
      last. */
  lemma SearchScenesCalls(s: Script)
    ensures var r := SearchScenes(s);
            && r.trace[0] == VideoSearch
            && 1 <= Count(r.trace, VideoSearch) <= 2
            && (Count(r.trace, VideoSearch) == 2 <==> Recovers(s.search(0)) && EnsureSceneIndex(s.listing, s.createIndex).outcome == Ok(true))
            && Count(r.trace, IndexScenes) <= 1
            && Count(r.trace, ListSceneIndex) <= 1 + MaxPolls
            && Count(r.trace, Compile) == 0 && Count(r.trace, Connect) == 0
  {
    var r := SearchScenes(s);
    if Recovers(s.search(0)) {
      var e := EnsureSceneIndex(s.listing, s.createIndex);
      EnsureSceneIndexCalls(s.listing, s.createIndex);
      if e.outcome == Ok(true) {
        assert r.trace == [VideoSearch] + e.trace + [VideoSearch];
        assert multiset(r.trace) == multiset([VideoSearch]) + multiset(e.trace) + multiset([VideoSearch]);
      } else {
        assert r.trace == [VideoSearch] + e.trace;
        assert multiset(r.trace) == multiset([VideoSearch]) + multiset(e.trace);
      }
    }
  }

  // Actions

  const TimeoutMessage: string := "Scene indexing is taking longer than expected. Try again later."

  /** `create`: the reply echoes the configuration; `time_interval` only
      for time-based extraction. */
  function Create(req: Request, videoId: string, create: Outcome<()>): (r: Step<Reply>)
    ensures r.trace == [IndexScenes]
    ensures r.outcome.Ok? <==> create.Ok?
    ensures create.Raised? ==> r.outcome == Raised(create.message)
    ensures r.outcome.Ok? ==>
              var c := r.outcome.value;
              && c.Created? && c.videoId == videoId && c.extractionType == req.extractionType
              && c.frameCount == req.frameCount && c.prompt == req.prompt
              && (c.timeInterval.Some? <==> req.extractionType == "time_based")
              && (c.timeInterval.Some? ==> c.timeInterval.value == req.timeInterval)
  {
    var interval := if req.extractionType == "time_based" then Some(req.timeInterval) else None;
    match create
    case Raised(m) => Step(Raised(m), [IndexScenes])
    case Ok(_) =>
      Step(Ok(Created(videoId, req.extractionType, interval, req.frameCount, req.prompt)), [IndexScenes])
  }

  function Entries(ds: seq<IndexDesc>): (r: seq<IndexEntry>)
    ensures |r| == |ds|
    ensures forall i :: 0 <= i < |ds| ==> r[i] == IndexEntry(ds[i].id.GetOr(ds[i].repr), ds[i].created)
  {
    seq(|ds|, i requires 0 <= i < |ds| => IndexEntry(ds[i].id.GetOr(ds[i].repr), ds[i].created))
  }

  /** `list`: one entry per index; an `AttributeError` is a success that
      says listing is unavailable. */
  function List(videoId: string, l: Listing): (r: Step<Reply>)
    ensures r.trace == [ListSceneIndex]
    ensures l.Listed? ==>
              && r.outcome.Ok? && r.outcome.value.Indexes? && r.outcome.value.videoId == videoId
              && |r.outcome.value.entries| == |l.indexes|
              && forall i :: 0 <= i < |l.indexes| ==>
                   && r.outcome.value.entries[i].id == (if l.indexes[i].id.Some? then l.indexes[i].id.value else l.indexes[i].repr)
                   && r.outcome.value.entries[i].created == l.indexes[i].created
    ensures l.Unsupported? ==> r.outcome == Ok(ListUnavailable(videoId))
    ensures l.ListFailed? ==> r.outcome == Raised(l.message)
  {
    match l
    case Listed(ds) => Step(Ok(Indexes(videoId, Entries(ds))), [ListSceneIndex])
    case Unsupported => Step(Ok(ListUnavailable(videoId)), [ListSceneIndex])
    case ListFailed(m) => Step(Raised(m), [ListSceneIndex])
  }

  /** `search`: the recovery block, then result shaping. */
  function Search(req: Request, videoId: string, s: Script): (r: Step<Reply>)
    ensures var sr := SearchScenes(s);
            && (sr.outcome.Raised? ==> r == Step(Raised(sr.outcome.message), sr.trace))
            && (sr.outcome == Ok(TimedOut) ==> r == Step(Ok(Failed(Failure(IndexingTimeout, TimeoutMessage))), sr.trace))
            && (sr.outcome.Ok? && sr.outcome.value.Found? ==>
                  var shots := sr.outcome.value.shots;
                  && (shots == [] ==> r == Step(Ok(Hits(videoId, req.query, [], 0, None)), sr.trace))
                  && (shots != [] ==> r.trace == sr.trace + [Compile])
                  && (shots != [] && s.compile.Raised? ==> r.outcome == Raised(s.compile.message))
                  && (shots != [] && s.compile.Ok? ==>
                        r.outcome == Ok(Hits(videoId, req.query, SceneHits(shots), |shots|, Some(s.compile.value)))))
  {
    var sr := SearchScenes(s);
    match sr.outcome
    case Raised(m) => Step(Raised(m), sr.trace)
    case Ok(TimedOut) => Step(Ok(Failed(Failure(IndexingTimeout, TimeoutMessage))), sr.trace)
    case Ok(Found(shots)) =>
      var c := CompiledUrl(shots, s.compile);
      var hits := SceneHits(shots);
      var out := match c.outcome
                 case Raised(m) => Raised(m)
                 case Ok(u) => Ok(Hits(videoId, req.query, hits, |hits|, u));
      Step(out, sr.trace + c.trace)
  }

  /** A scene search asks for a compiled stream at most once, and only
      when the final search found at least one shot; the reported total
      is the number of results. */
  lemma SearchCompilesOnlyHits(req: Request, videoId: string, s: Script)
    ensures var r := Search(req, videoId, s);
            var sr := SearchScenes(s);
            && Count(r.trace, Compile) <= 1
            && (Compile in r.trace <==> sr.outcome.Ok? && sr.outcome.value.Found? && sr.outcome.value.shots != [])
            && (r.outcome.Ok? && r.outcome.value.Hits? ==>
                  r.outcome.value.total == |r.outcome.value.results| && (r.outcome.value.compiled.Some? <==> r.outcome.value.results != []))
  {
    var r := Search(req, videoId, s);
    var sr := SearchScenes(s);
    SearchScenesCalls(s);
    if sr.outcome.Ok? && sr.outcome.value.Found? && sr.outcome.value.shots != [] {
      assert multiset(r.trace) == multiset(sr.trace) + multiset([Compile]);
    }
  }

  /** Only `search` searches or polls; `create` and `list` each issue a
      single call. */
  function Act(req: Request, videoId: string, s: Script): (r: Step<Reply>)
    ensures req.action == "create" ==> r.trace == [IndexScenes] && r == Create(req, videoId, s.createIndex)
    ensures req.action == "list" ==> r.trace == [ListSceneIndex] && r == List(videoId, s.listing(0))
    ensures req.action != "create" && req.action != "list" ==> r == Search(req, videoId, s)
  {
    if req.action == "create" then Create(req, videoId, s.createIndex)
    else if req.action == "list" then List(videoId, s.listing(0))
    else Search(req, videoId, s)
  }

  // The outer exception handler

  const NotIndexedMessage: string := "No scene index found. Create one first with action='create'."
  const ProcessingMessage: string := "Scene index is being created. Try again in a few minutes."

  const Rules: seq<Rule> := [
    Rule(["not indexed", "no scene"], NotIndexed, NotIndexedMessage),
    Rule(["processing"], Processing, ProcessingMessage)
  ]

  /** The skill's exception classifier. */
  function ClassifyError(raw: string): (r: Failure)
    ensures ContainsFolded(raw, "not indexed") || ContainsFolded(raw, "no scene") ==>
              r == Failure(NotIndexed, NotIndexedMessage)
    ensures !ContainsFolded(raw, "not indexed") && !ContainsFolded(raw, "no scene") && ContainsFolded(raw, "processing") ==>
              r == Failure(Processing, ProcessingMessage)
    ensures !ContainsFolded(raw, "not indexed") && !ContainsFolded(raw, "no scene") && !ContainsFolded(raw, "processing") ==>
              r == Failure(SceneIndexError, raw)
  {
    assert Rules[0].needles == ["not indexed", "no scene"] && Rules[1].needles == ["processing"];
    assert Fires(Rules[0], raw) <==> ContainsFolded(raw, "not indexed") || ContainsFolded(raw, "no scene") by {
      assert Rules[0].needles[0] == "not indexed" && Rules[0].needles[1] == "no scene";
    }
    assert Fires(Rules[1], raw) <==> ContainsFolded(raw, "processing") by {
      assert Rules[1].needles[0] == "processing";
    }
    Classify(Rules, SceneIndexError, raw)
  }

  // The whole skill

  /** Everything inside the `try`: connect, resolve the video, act. */
  function Execute(req: Request, s: Script): (r: Step<Reply>)
    ensures |r.trace| > 0 && r.trace[0] == Connect
    ensures s.collection.connect.Raised? ==> r == Step(Raised(s.collection.connect.message), [Connect])
    ensures s.collection.connect.Ok? ==>
              var loc := Locate(req.videoId, req.url, s.collection);
              && (loc.outcome.Raised? ==> r == Step(Raised(loc.outcome.message), [Connect] + loc.trace))
              && (loc.outcome.Ok? && loc.outcome.value.video.None? ==>
                    r == Step(Ok(Failed(NotFound(loc.outcome.value.videoId))), [Connect] + loc.trace))
              && (loc.outcome.Ok? && loc.outcome.value.video.Some? ==>
                    var a := Act(req, loc.outcome.value.videoId, s);
                    r == Step(a.outcome, [Connect] + loc.trace + a.trace))
  {
    match s.collection.connect
    case Raised(m) => Step(Raised(m), [Connect])
    case Ok(_) =>
      var loc := Locate(req.videoId, req.url, s.collection);
      match loc.outcome
      case Raised(m) => Step(Raised(m), [Connect] + loc.trace)
      case Ok(l) =>
        if l.video.None? then Step(Ok(Failed(NotFound(l.videoId))), [Connect] + loc.trace)
        else
          var a := Act(req, l.videoId, s);
          Step(a.outcome, [Connect] + loc.trace + a.trace)
  }

  /** The skill: validation failures are reported before any backend
      call; otherwise the skill connects first, and an exception that
      escapes is classified. */
  function Run(env: Env, req: Request, s: Script): (r: Response<Reply>)
    ensures Validate(env, req).Some? <==> r.trace == []
    ensures Validate(env, req).Some? ==> r.reply == Failed(Validate(env, req).value)
    ensures Validate(env, req).None? ==> r.trace[0] == Connect
    ensures Validate(env, req).None? ==> r.trace == Execute(req, s).trace
    ensures Validate(env, req).None? && Execute(req, s).outcome.Ok? ==> r.reply == Execute(req, s).outcome.value
    ensures Validate(env, req).None? && Execute(req, s).outcome.Raised? ==>
              r.reply == Failed(ClassifyError(Execute(req, s).outcome.message))
  {
    match Validate(env, req)
    case Some(f) => Response(Failed(f), [])
    case None =>
      var e := Execute(req, s);
      match e.outcome
      case Ok(reply) => Response(reply, e.trace)
      case Raised(m) => Response(Failed(ClassifyError(m)), e.trace)
  }

  /** A lookup by id that finds nothing is `VIDEO_NOT_FOUND` for that id,
      after only the connection and the lookup, whatever the action. */
  lemma MissingVideoStops(env: Env, req: Request, s: Script)
    requires Validate(env, req).None? && req.url == ""
    requires s.collection.connect.Ok? && s.collection.lookup == Ok(None)
    ensures Run(env, req, s) == Response(Failed(NotFound(req.videoId)), [Connect, GetVideo(req.videoId)])
  {
  }

  /** The reply code of a classified exception is one of the handler's
      three codes. */
  lemma ClassifiedCodes(raw: string)
    ensures ClassifyError(raw).code in {NotIndexed, Processing, SceneIndexError}
  {
  }

  /** Once validation passes, the skill connects exactly once. */
  lemma ConnectsOnce(env: Env, req: Request, s: Script)
    requires Validate(env, req).None?
    ensures Count(Run(env, req, s).trace, Connect) == 1
  {
    if s.collection.connect.Ok? {
      var e := Execute(req, s);
      var loc := Locate(req.videoId, req.url, s.collection);
      assert Connect !in loc.trace;
      if loc.outcome.Ok? && loc.outcome.value.video.Some? {
        var a := Act(req, loc.outcome.value.videoId, s);
        ActCalls(req, loc.outcome.value.videoId, s);
        assert e.trace == [Connect] + loc.trace + a.trace;
        assert multiset(e.trace) == multiset([Connect]) + multiset(loc.trace) + multiset(a.trace);
      }
    }
  }

  /** Bounds on the calls of the search action. */
  lemma SearchCalls(req: Request, videoId: string, s: Script)
    ensures var r := Search(req, videoId, s);
            && Count(r.trace, VideoSearch) <= 2
            && Count(r.trace, IndexScenes) <= 1
            && Count(r.trace, ListSceneIndex) <= 1 + MaxPolls
            && Count(r.trace, Compile) <= 1
            && Count(r.trace, Connect) == 0
  {
    var r := Search(req, videoId, s);
    var sr := SearchScenes(s);
    SearchScenesCalls(s);
    if sr.outcome.Ok? && sr.outcome.value.Found? && sr.outcome.value.shots != [] {
      assert r.trace == sr.trace + [Compile];
      assert multiset(r.trace) == multiset(sr.trace) + multiset([Compile]);
    } else {
      assert r.trace == sr.trace;
    }
  }

  /** Bounds on the calls of one action. */
  lemma ActCalls(req: Request, videoId: string, s: Script)
    ensures var r := Act(req, videoId, s);
            && Count(r.trace, VideoSearch) <= 2
            && Count(r.trace, IndexScenes) <= 1
            && Count(r.trace, ListSceneIndex) <= 1 + MaxPolls
            && Count(r.trace, Compile) <= 1
            && Count(r.trace, Connect) == 0
            && (req.action == "create" || req.action == "list" ==> VideoSearch !in r.trace && Sleep !in r.trace)
  {
    if req.action != "create" && req.action != "list" {
      SearchCalls(req, videoId, s);
    }
  }

  /** The search block times out only after one search, one creation,
      the initial check and all `MaxPolls` polls, in that order. */
  lemma SearchScenesTimeout(s: Script)
    requires SearchScenes(s).outcome == Ok(TimedOut)
    ensures SearchScenes(s).trace == [VideoSearch] + ([ListSceneIndex, IndexScenes] + Waits(MaxPolls))
  {
    var x := EnsureSceneIndex(s.listing, s.createIndex);
    assert Recovers(s.search(0)) && x.outcome == Ok(false);
    assert !IsReady(s.listing(0)) && s.createIndex.Ok?;
  }

  /** The action-level half of `TimeoutAfterFullWait`. */
  lemma ActTimeout(req: Request, videoId: string, s: Script)
    requires Act(req, videoId, s).outcome.Ok?
    requires Act(req, videoId, s).outcome.value.Failed?
    ensures Act(req, videoId, s).trace == [VideoSearch] + ([ListSceneIndex, IndexScenes] + Waits(MaxPolls))
  {
    assert req.action != "create" && req.action != "list";
    var sr := SearchScenes(s);
    assert sr.outcome == Ok(TimedOut);
    assert Act(req, videoId, s).trace == sr.trace;
    SearchScenesTimeout(s);
  }

  /** The calls of a timed-out search block. */
  lemma TimedOutCounts(n: nat)
    ensures var t := [VideoSearch] + ([ListSceneIndex, IndexScenes] + Waits(n));
            && Count(t, VideoSearch) == 1
            && Count(t, IndexScenes) == 1
            && Count(t, ListSceneIndex) == 1 + n
            && Count(t, Sleep) == n
            && Count(t, Compile) == 0
  {
    var w := [ListSceneIndex, IndexScenes] + Waits(n);
    CreatedCounts(n);
    CountConcat([VideoSearch], w);
    assert multiset([VideoSearch]) == multiset{VideoSearch};
  }

  /** The calls of a timed-out run after the connection and a resolution
      `t` that issued only collection calls. */
  lemma FullWaitCounts(t: seq<Call>)
    requires forall x: Call :: !x.GetVideos? && !x.GetVideo? && !x.Upload? ==> Count(t, x) == 0
    ensures var f := ([Connect] + t) + ([VideoSearch] + ([ListSceneIndex, IndexScenes] + Waits(MaxPolls)));
            && Count(f, VideoSearch) == 1
            && Count(f, IndexScenes) == 1
            && Count(f, ListSceneIndex) == 1 + MaxPolls
            && Count(f, Sleep) == MaxPolls
            && Count(f, Compile) == 0
  {
    var w := [VideoSearch] + ([ListSceneIndex, IndexScenes] + Waits(MaxPolls));
    TimedOutCounts(MaxPolls);
    CountConcat([Connect], t);
    assert multiset([Connect]) == multiset{Connect};
    CountConcat([Connect] + t, w);
  }

  /** The `try` block reports a timeout only after connecting, resolving
      the video and the full wait. */
  lemma ExecuteTimeout(req: Request, s: Script)
    requires Execute(req, s).outcome.Ok? && Execute(req, s).outcome.value.Failed?
    requires Execute(req, s).outcome.value.failure.code == IndexingTimeout
    ensures Execute(req, s).trace ==
              ([Connect] + Locate(req.videoId, req.url, s.collection).trace)
              + ([VideoSearch] + ([ListSceneIndex, IndexScenes] + Waits(MaxPolls)))
  {
    var loc := Locate(req.videoId, req.url, s.collection);
    ActTimeout(req, loc.outcome.value.videoId, s);
  }

  /** `INDEXING_TIMEOUT` is reported only after a search, one index
      creation, the initial readiness check and all `MaxPolls` polls, each
      preceded by a pause, and no second search or compile. */
  lemma TimeoutAfterFullWait(env: Env, req: Request, s: Script)
    requires Run(env, req, s).reply.Failed? && Run(env, req, s).reply.failure.code == IndexingTimeout
    ensures var t := Run(env, req, s).trace;
            && Count(t, VideoSearch) == 1
            && Count(t, IndexScenes) == 1
            && Count(t, ListSceneIndex) == 1 + MaxPolls
            && Count(t, Sleep) == MaxPolls
            && Count(t, Compile) == 0
  {
    var e := Execute(req, s);
    if e.outcome.Raised? {
      ClassifiedCodes(e.outcome.message);
    }
    assert Run(env, req, s).trace == e.trace;
    ExecuteTimeout(req, s);
    LocateCounts(req.videoId, req.url, s.collection);
    FullWaitCounts(Locate(req.videoId, req.url, s.collection).trace);
  }

}

=== FILE: search.dfy ===
/** The search skill (`search_videodb`): natural-language search in one
    video or across the collection. In video scope a failed first search
    whose error mentions an index is retried once, after one indexing
    request and without polling. */
module Search {
  import opened Text
  import opened Backend
  import opened Errors
  import opened Resolver
  import opened Formatter

  /** `is_url`: the text starts with an http or https scheme. */
  function IsUrl(s: string): (r: bool)
    ensures r <==> StartsWith(s, "http://") || StartsWith(s, "https://")
    ensures r ==> 7 <= |s| && s[..4] == "http"
  {
    s != "" && (StartsWith(s, "http://") || StartsWith(s, "https://"))
  }

  /** A URL stays a URL whatever follows the scheme, and nothing shorter
      than the shorter scheme is one. */
  lemma IsUrlShape(s: string, rest: string)
    ensures IsUrl("http://" + rest) && IsUrl("https://" + rest)
    ensures |s| < 7 ==> !IsUrl(s)
    ensures IsUrl(s) ==> IsUrl(s + rest)
  {
    assert ("http://" + rest)[..7] == "http://";
    assert ("https://" + rest)[..8] == "https://";
    if IsUrl(s) {
      if StartsWith(s, "http://") {
        assert (s + rest)[..7] == s[..7];
      } else {
        assert (s + rest)[..8] == s[..8];
      }
    }
  }

  datatype SearchType = Semantic | Keyword
  datatype IndexType = SpokenWord | Scene

  function SearchTypeName(t: SearchType): string
  {
    match t
    case Semantic => "semantic"
    case Keyword => "keyword"
  }

  function IndexTypeName(t: IndexType): string
  {
    match t
    case SpokenWord => "spoken_word"
    case Scene => "scene"
  }

  /** The search type named by `text`, compared after lower-casing. */
  function ParseSearchType(text: string): (r: Option<SearchType>)
    ensures forall t :: r == Some(t) <==> Lower(text) == SearchTypeName(t)
  {
    if Lower(text) == "semantic" then Some(Semantic)
    else if Lower(text) == "keyword" then Some(Keyword)
    else None
  }

  /** The index type named by `text`, compared after lower-casing. */
  function ParseIndexType(text: string): (r: Option<IndexType>)
    ensures forall t :: r == Some(t) <==> Lower(text) == IndexTypeName(t)
  {
    if Lower(text) == "spoken_word" then Some(SpokenWord)
    else if Lower(text) == "scene" then Some(Scene)
    else None
  }

  /** Every type name is accepted as itself, and the mapping ignores
      case. */
  lemma ParseTypesRoundTrip(st: SearchType, it: IndexType, text: string)
    ensures ParseSearchType(SearchTypeName(st)) == Some(st)
    ensures ParseIndexType(IndexTypeName(it)) == Some(it)
    ensures ParseSearchType(Lower(text)) == ParseSearchType(text)
    ensures ParseIndexType(Lower(text)) == ParseIndexType(text)
  {
    LowerIdempotent(text);
    assert Lower(SearchTypeName(st)) == SearchTypeName(st);
    assert Lower(IndexTypeName(it)) == IndexTypeName(it);
  }

  /** The keyword arguments of `search_videodb`; "" stands for an absent
      or None query, video id or URL. The two thresholds are passed through to the
      backend and never inspected. */
  datatype Request = Request(
    query: string,
    videoId: string,
    url: string,
    scope: string,
    searchType: string,
    indexType: string)

  function Defaults(query: string, videoId: string, url: string): Request
  {
    Request(query, videoId, url, "video", "semantic", "spoken_word")
  }

  /** Scripted answers: the collection calls, `collection.search`, the
      i-th indexing request, the i-th `video.search`, and `compile`. */
  datatype Script = Script(
    collection: Collection,
    collectionSearch: Outcome<seq<Shot>>,
    index: nat -> Outcome<()>,
    search: nat -> Outcome<seq<Shot>>,
    compile: Outcome<string>)

  datatype Reply =
    | Failed(failure: Failure)
    | Results(query: string, scope: string, videoId: string, results: seq<SearchHit>, total: nat, compiled: Option<string>)

  // Input validation

  const VideoIdMessage: string := "video_id or url required when scope is 'video'"
  const SearchTypeMessage: string := "Use 'semantic' or 'keyword'"
  const IndexTypeMessage: string := "Use 'spoken_word' or 'scene'"

  /** Only the exact scope "video" demands a video reference. */
  predicate LacksVideo(req: Request)
  {
    req.scope == "video" && req.videoId == "" && req.url == ""
  }

  function Checks(env: Env, req: Request): seq<Check>
  {
    EnvChecks(env) +
    [ Check(!LacksVideo(req), Failure(MissingVideoId, VideoIdMessage)),
      Check(ParseSearchType(req.searchType).Some?, Failure(InvalidSearchType, SearchTypeMessage)),
      Check(ParseIndexType(req.indexType).Some?, Failure(InvalidIndexType, IndexTypeMessage)) ]
  }

  /** The checks made before any connection, in this order. */
  function Validate(env: Env, req: Request): (r: Option<Failure>)
    ensures !env.sdkInstalled ==> r == Some(Failure(MissingDependency, DependencyMessage))
    ensures env.sdkInstalled && env.apiKey == "" ==> r == Some(Failure(MissingApiKey, ApiKeyMessage))
    ensures EnvOk(env) && LacksVideo(req) ==> r == Some(Failure(MissingVideoId, VideoIdMessage))
    ensures EnvOk(env) && !LacksVideo(req) && ParseSearchType(req.searchType).None? ==>
              r == Some(Failure(InvalidSearchType, SearchTypeMessage))
    ensures (EnvOk(env) && !LacksVideo(req) && ParseSearchType(req.searchType).Some?
             && ParseIndexType(req.indexType).None?) ==> r == Some(Failure(InvalidIndexType, IndexTypeMessage))
    ensures r.None? <==> EnvOk(env) && !LacksVideo(req) && ParseSearchType(req.searchType).Some?
                         && ParseIndexType(req.indexType).Some?
  {
    var cs := Checks(env, req);
    assert cs[0].passes == env.sdkInstalled && cs[1].passes == (env.apiKey != "");
    assert cs[2].passes == !LacksVideo(req);
    assert cs[3].passes == ParseSearchType(req.searchType).Some?;
    assert cs[4].passes == ParseIndexType(req.indexType).Some?;
    FirstOfFive(cs);
    FirstFailure(cs)
  }

  // Indexing and the single retry

  /** The indexer `ensure_indexed` calls for an index type. */
  function IndexCall(it: IndexType): (r: Call)
    ensures r == IndexSpokenWords <==> it == SpokenWord
    ensures r == IndexScenes <==> it == Scene
  {
    match it
    case SpokenWord => IndexSpokenWords
    case Scene => IndexScenes
  }

  /** `ensure_indexed`: request indexing once; an error that says the
      video is "already" indexed is swallowed, any other is re-raised. */
  function EnsureIndexed(it: IndexType, answer: Outcome<()>): (r: Step<()>)
    ensures r.trace == [IndexCall(it)]
    ensures r.outcome.Ok? <==> answer.Ok? || ContainsFolded(answer.message, "already")
    ensures r.outcome.Raised? ==> r.outcome == answer
  {
    match answer
    case Ok(_) => Step(Ok(()), [IndexCall(it)])
    case Raised(m) =>
      if ContainsFolded(m, "already") then Step(Ok(()), [IndexCall(it)])
      else Step(Raised(m), [IndexCall(it)])
  }

  /** The retry test on the first search's error: it mentions
      "not indexed" or "index", in any case. */
  predicate Retries(raw: string)
  {
    ContainsFolded(raw, "not indexed") || ContainsFolded(raw, "index")
  }

  /** The first disjunct of the retry test is implied by the second: the
      retry fires exactly when the text mentions "index". */
  lemma RetriesOnIndex(raw: string)
    ensures Retries(raw) <==> ContainsFolded(raw, "index")
  {
    if ContainsFolded(raw, "not indexed") {
      assert OccursAt("not indexed", "index", 4);
      ContainsWithin(Lower(raw), "not indexed", "index", 4);
    }
  }

  /** The video search block. `next` is the first unused indexing answer:
      1 after the URL path's up-front indexing request, 0 otherwise. An
      empty result is a success and is not retried. */
  function SearchVideo(it: IndexType, s: Script, next: nat): (r: Step<seq<Shot>>)
    ensures |r.trace| > 0 && r.trace[0] == VideoSearch
    ensures s.search(0).Ok? ==> r == Step(s.search(0), [VideoSearch])
    ensures s.search(0).Raised? && !Retries(s.search(0).message) ==> r == Step(s.search(0), [VideoSearch])
    ensures s.search(0).Raised? && Retries(s.search(0).message) ==>
              var e := EnsureIndexed(it, s.index(next));
              && (e.outcome.Raised? ==> r == Step(Raised(e.outcome.message), [VideoSearch, IndexCall(it)]))
              && (e.outcome.Ok? ==> r == Step(s.search(1), [VideoSearch, IndexCall(it), VideoSearch]))
  {
    match s.search(0)
    case Ok(shots) => Step(Ok(shots), [VideoSearch])
    case Raised(m) =>
      if !Retries(m) then Step(Raised(m), [VideoSearch])
      else
        var e := EnsureIndexed(it, s.index(next));
        match e.outcome
        case Raised(m2) => Step(Raised(m2), [VideoSearch, IndexCall(it)])
        case Ok(_) => Step(s.search(1), [VideoSearch, IndexCall(it), VideoSearch])
  }

  /** At most two video searches and one indexing request; the second
      search happens only after an error mentioning "index" and a
      successful or "already" indexing answer. */
  lemma SearchVideoCalls(it: IndexType, s: Script, next: nat)
    ensures var r := SearchVideo(it, s, next);
            && 1 <= Count(r.trace, VideoSearch) <= 2
            && Count(r.trace, IndexCall(it)) <= 1
            && (Count(r.trace, VideoSearch) == 2 <==>
                  s.search(0).Raised? && ContainsFolded(s.search(0).message, "index")
                  && EnsureIndexed(it, s.index(next)).outcome.Ok?)
            && forall c :: c != VideoSearch && c != IndexCall(it) ==> Count(r.trace, c) == 0
  {
    if s.search(0).Raised? {
      RetriesOnIndex(s.search(0).message);
    }
  }

  // Result shaping

  /** Formatting and compiling; `videoId` is the fallback video of each
      record and the reply's `video_id`. */
  function Shape(req: Request, videoId: string, shots: seq<Shot>, compile: Outcome<string>): (r: Step<Reply>)
    ensures r.trace == CompiledUrl(shots, compile).trace
    ensures r.outcome.Raised? <==> shots != [] && compile.Raised?
    ensures r.outcome.Ok? ==>
              && r.outcome.value.Results? && r.outcome.value.videoId == videoId
              && r.outcome.value.query == req.query && r.outcome.value.scope == req.scope
              && r.outcome.value.results == SearchHits(shots, videoId)
              && r.outcome.value.total == |shots| == |r.outcome.value.results|
              && (r.outcome.value.compiled.Some? <==> shots != [])
  {
    var c := CompiledUrl(shots, compile);
    match c.outcome
    case Raised(m) => Step(Raised(m), c.trace)
    case Ok(u) =>
      var hits := SearchHits(shots, videoId);
      Step(Ok(Results(req.query, req.scope, videoId, hits, |hits|, u)), c.trace)
  }

  // The whole skill

  /** The search block followed by result shaping. */
  function SearchAndShape(req: Request, it: IndexType, videoId: string, s: Script, next: nat): (r: Step<Reply>)
    ensures |r.trace| > 0 && r.trace[0] == VideoSearch
    ensures var sv := SearchVideo(it, s, next);
            && (sv.outcome.Raised? ==> r == Step(Raised(sv.outcome.message), sv.trace))
            && (sv.outcome.Ok? ==> r == Step(Shape(req, videoId, sv.outcome.value, s.compile).outcome,
                                             sv.trace + Shape(req, videoId, sv.outcome.value, s.compile).trace))
  {
    var sv := SearchVideo(it, s, next);
    match sv.outcome
    case Raised(m) => Step(Raised(m), sv.trace)
    case Ok(shots) =>
      var sh := Shape(req, videoId, shots, s.compile);
      Step(sh.outcome, sv.trace + sh.trace)
  }

  /** Video scope after the video is known: the URL path asks for
      indexing before searching. */
  function OnVideo(req: Request, it: IndexType, videoId: string, s: Script): (r: Step<Reply>)
    ensures |r.trace| > 0
    ensures req.url != "" ==> r.trace[0] == IndexCall(it)
    ensures req.url == "" ==> r == SearchAndShape(req, it, videoId, s, 0)
    ensures req.url != "" ==>
              var e := EnsureIndexed(it, s.index(0));
              && (e.outcome.Raised? ==> r == Step(Raised(e.outcome.message), e.trace))
              && (e.outcome.Ok? ==> r == Step(SearchAndShape(req, it, videoId, s, 1).outcome,
                                             e.trace + SearchAndShape(req, it, videoId, s, 1).trace))
  {
    if req.url != "" then
      var e := EnsureIndexed(it, s.index(0));
      match e.outcome
      case Raised(m) => Step(Raised(m), e.trace)
      case Ok(_) =>
        var a := SearchAndShape(req, it, videoId, s, 1);
        Step(a.outcome, e.trace + a.trace)
    else
      SearchAndShape(req, it, videoId, s, 0)
  }

  /** Everything inside the `try`. Any scope other than "collection" takes
      the video path. */
  function Execute(req: Request, it: IndexType, s: Script): (r: Step<Reply>)
    ensures |r.trace| > 0 && r.trace[0] == Connect
    ensures s.collection.connect.Raised? ==> r == Step(Raised(s.collection.connect.message), [Connect])
    ensures s.collection.connect.Ok? && req.scope == "collection" ==>
              && (s.collectionSearch.Raised? ==>
                    r == Step(Raised(s.collectionSearch.message), [Connect, CollectionSearch]))
              && (s.collectionSearch.Ok? ==>
                    var sh := Shape(req, req.videoId, s.collectionSearch.value, s.compile);
                    r == Step(sh.outcome, [Connect, CollectionSearch] + sh.trace))
    ensures s.collection.connect.Ok? && req.scope != "collection" ==>
              var loc := Locate(req.videoId, req.url, s.collection);
              && (loc.outcome.Raised? ==> r == Step(Raised(loc.outcome.message), [Connect] + loc.trace))
              && (loc.outcome.Ok? && loc.outcome.value.video.None? ==>
                    r == Step(Ok(Failed(NotFound(loc.outcome.value.videoId))), [Connect] + loc.trace))
              && (loc.outcome.Ok? && loc.outcome.value.video.Some? ==>
                    var v := OnVideo(req, it, loc.outcome.value.videoId, s);
                    r == Step(v.outcome, [Connect] + loc.trace + v.trace))
  {
    match s.collection.connect
    case Raised(m) => Step(Raised(m), [Connect])
    case Ok(_) =>
      if req.scope == "collection" then
        match s.collectionSearch
        case Raised(m) => Step(Raised(m), [Connect, CollectionSearch])
        case Ok(shots) =>
          var sh := Shape(req, req.videoId, shots, s.compile);
          Step(sh.outcome, [Connect, CollectionSearch] + sh.trace)
      else
        var loc := Locate(req.videoId, req.url, s.collection);
        match loc.outcome
        case Raised(m) => Step(Raised(m), [Connect] + loc.trace)
        case Ok(l) =>
          if l.video.None? then Step(Ok(Failed(NotFound(l.videoId))), [Connect] + loc.trace)
          else
            var v := OnVideo(req, it, l.videoId, s);
            Step(v.outcome, [Connect] + loc.trace + v.trace)
  }

  const NotIndexedMessage: string := "Video not indexed. Run video.index_spoken_words() first."

  const Rules: seq<Rule> := [Rule(["not indexed"], NotIndexed, NotIndexedMessage)]

  /** The skill's exception classifier. */
  function ClassifyError(raw: string): (r: Failure)
    ensures ContainsFolded(raw, "not indexed") ==> r == Failure(NotIndexed, NotIndexedMessage)
    ensures !ContainsFolded(raw, "not indexed") ==> r == Failure(SearchError, raw)
  {
    assert Fires(Rules[0], raw) <==> ContainsFolded(raw, "not indexed") by {
      assert Rules[0].needles == ["not indexed"] && Rules[0].needles[0] == "not indexed";
    }
    Classify(Rules, SearchError, raw)
  }

  /** The skill: validation failures are reported before any backend
      call; otherwise the skill connects first, and an exception that
      escapes is classified. */
  function Run(env: Env, req: Request, s: Script): (r: Response<Reply>)
    ensures Validate(env, req).Some? <==> r.trace == []
    ensures Validate(env, req).Some? ==> r.reply == Failed(Validate(env, req).value)
    ensures Validate(env, req).None? ==> r.trace[0] == Connect
    ensures Validate(env, req).None? ==> r.trace == Execute(req, ParseIndexType(req.indexType).value, s).trace
    ensures Validate(env, req).None? && Execute(req, ParseIndexType(req.indexType).value, s).outcome.Ok? ==> r.reply == Execute(req, ParseIndexType(req.indexType).value, s).outcome.value
    ensures Validate(env, req).None? && Execute(req, ParseIndexType(req.indexType).value, s).outcome.Raised? ==>
              r.reply == Failed(ClassifyError(Execute(req, ParseIndexType(req.indexType).value, s).outcome.message))
  {
    match Validate(env, req)
    case Some(f) => Response(Failed(f), [])
    case None =>
      var e := Execute(req, ParseIndexType(req.indexType).value, s);
      match e.outcome
      case Ok(reply) => Response(reply, e.trace)
      case Raised(m) => Response(Failed(ClassifyError(m)), e.trace)
  }

  /** In video scope, a lookup by id that finds nothing is `VIDEO_NOT_FOUND`
      for that id, after only the connection and the lookup. */
  lemma MissingVideoStops(env: Env, req: Request, s: Script)
    requires Validate(env, req).None? && req.scope != "collection" && req.url == ""
    requires s.collection.connect.Ok? && s.collection.lookup == Ok(None)
    ensures Run(env, req, s) == Response(Failed(NotFound(req.videoId)), [Connect, GetVideo(req.videoId)])
  {
  }

  /** The calls of the search block and the shaping after it. */
  lemma SearchAndShapeCalls(req: Request, it: IndexType, videoId: string, s: Script, next: nat)
    ensures var r := SearchAndShape(req, it, videoId, s, next);
            && Count(r.trace, VideoSearch) <= 2
            && Count(r.trace, IndexCall(it)) <= 1
            && Count(r.trace, Compile) <= 1
            && (Count(r.trace, VideoSearch) == 2 ==> s.search(0).Raised? && ContainsFolded(s.search(0).message, "index"))
            && (s.search(0).Ok? ==> Count(r.trace, VideoSearch) <= 1)
            && forall c :: c != VideoSearch && c != IndexCall(it) && c != Compile ==> Count(r.trace, c) == 0
  {
    var r := SearchAndShape(req, it, videoId, s, next);
    var sv := SearchVideo(it, s, next);
    SearchVideoCalls(it, s, next);
    if sv.outcome.Ok? {
      var sh := Shape(req, videoId, sv.outcome.value, s.compile);
      assert sh.trace == [] || sh.trace == [Compile];
      assert multiset(sh.trace) == multiset{} || multiset(sh.trace) == multiset{Compile};
      CountConcat(sv.trace, sh.trace);
    }
  }

  /** The calls of the video path once the video is known. */
  lemma OnVideoCalls(req: Request, it: IndexType, videoId: string, s: Script)
    ensures var r := OnVideo(req, it, videoId, s);
            && Count(r.trace, VideoSearch) <= 2
            && Count(r.trace, IndexCall(it)) <= (if req.url != "" then 2 else 1)
            && Count(r.trace, Compile) <= 1
            && (Count(r.trace, VideoSearch) == 2 ==> s.search(0).Raised? && ContainsFolded(s.search(0).message, "index"))
            && (s.search(0).Ok? ==> Count(r.trace, VideoSearch) <= 1)
            && forall c :: c != VideoSearch && c != IndexCall(it) && c != Compile ==> Count(r.trace, c) == 0
  {
    var next := if req.url != "" then 1 else 0;
    SearchAndShapeCalls(req, it, videoId, s, next);
    if req.url != "" {
      var e := EnsureIndexed(it, s.index(0));
      assert e.trace == [IndexCall(it)];
      assert multiset(e.trace) == multiset{IndexCall(it)};
      if e.outcome.Ok? {
        CountConcat(e.trace, SearchAndShape(req, it, videoId, s, 1).trace);
      }
    }
  }

  /** The three call sequences collection scope can issue. */
  lemma CollectionTrace(req: Request, it: IndexType, s: Script)
    requires req.scope == "collection"
    ensures var t := Execute(req, it, s).trace;
            || t == [Connect]
            || t == [Connect, CollectionSearch]
            || t == [Connect, CollectionSearch, Compile]
    ensures s.collection.connect.Ok? ==> Execute(req, it, s).trace != [Connect]
  {
    if s.collection.connect.Ok? && s.collectionSearch.Ok? {
      var sh := Shape(req, req.videoId, s.collectionSearch.value, s.compile);
      assert sh.trace == [] || sh.trace == [Compile];
    }
  }

  /** Counting on those three sequences. */
  lemma CollectionCounts(t: seq<Call>, connected: bool)
    requires t == [Connect] || t == [Connect, CollectionSearch] || t == [Connect, CollectionSearch, Compile]
    requires connected ==> t != [Connect]
    ensures && Count(t, CollectionSearch) <= 1
            && (connected ==> CollectionSearch in t)
            && forall c :: c in t ==> c == Connect || c == CollectionSearch || c == Compile
  {
    assert multiset([Connect]) == multiset{Connect};
    assert multiset([Connect, CollectionSearch]) == multiset{Connect, CollectionSearch};
    assert multiset([Connect, CollectionSearch, Compile]) == multiset{Connect, CollectionSearch, Compile};
  }

  /** Collection scope makes one collection search and never resolves,
      uploads, indexes or retries. */
  lemma CollectionScopeCalls(env: Env, req: Request, s: Script)
    requires Validate(env, req).None? && req.scope == "collection"
    ensures var t := Run(env, req, s).trace;
            && Count(t, CollectionSearch) <= 1
            && (s.collection.connect.Ok? ==> CollectionSearch in t)
            && forall c :: c in t ==> c == Connect || c == CollectionSearch || c == Compile
  {
    var it := ParseIndexType(req.indexType).value;
    CollectionTrace(req, it, s);
    CollectionCounts(Execute(req, it, s).trace, s.collection.connect.Ok?);
  }

  /** The counts of the video path: the connection, a resolution `l`
      that issued only collection calls, then the calls `v` on the video. */
  lemma VideoCounts(t: seq<Call>, l: seq<Call>, v: seq<Call>, it: IndexType, url: string,
                    bound: nat, retried: bool, firstOk: bool)
    requires t == ([Connect] + l) + v
    requires forall x: Call :: !x.GetVideos? && !x.GetVideo? && !x.Upload? ==> Count(l, x) == 0
    requires Count(l, Upload(url)) <= 1
    requires forall c :: c != VideoSearch && c != IndexCall(it) && c != Compile ==> Count(v, c) == 0
    requires Count(v, VideoSearch) <= 2 && Count(v, IndexCall(it)) <= bound
    requires Count(v, VideoSearch) == 2 ==> retried
    requires firstOk ==> Count(v, VideoSearch) <= 1
    ensures && Count(t, CollectionSearch) == 0
            && Count(t, VideoSearch) <= 2
            && Count(t, Upload(url)) <= 1
            && Count(t, IndexCall(it)) <= bound
            && (Count(t, VideoSearch) == 2 ==> retried)
            && (firstOk ==> Count(t, VideoSearch) <= 1)
  {
    CountConcat([Connect], l);
    assert multiset([Connect]) == multiset{Connect};
    CountConcat([Connect] + l, v);
  }

  /** The video path: the connection, the resolution, and the calls on
      the video once it is found. */
  lemma ExecuteVideoTrace(req: Request, it: IndexType, s: Script)
    requires req.scope != "collection" && s.collection.connect.Ok?
    ensures var loc := Locate(req.videoId, req.url, s.collection);
            var found := loc.outcome.Ok? && loc.outcome.value.video.Some?;
            Execute(req, it, s).trace ==
              ([Connect] + loc.trace) + (if found then OnVideo(req, it, loc.outcome.value.videoId, s).trace else [])
  {
  }

  /** Video scope never searches the collection, searches the video at
      most twice, uploads at most once, and retries only after an error
      mentioning "index"; an empty first result is not retried. */
  lemma VideoScopeCalls(env: Env, req: Request, s: Script)
    requires Validate(env, req).None? && req.scope != "collection"
    ensures var t := Run(env, req, s).trace;
            var it := ParseIndexType(req.indexType).value;
            && Count(t, CollectionSearch) == 0
            && Count(t, VideoSearch) <= 2
            && Count(t, Upload(req.url)) <= 1
            && Count(t, IndexCall(it)) <= (if req.url != "" then 2 else 1)
            && (Count(t, VideoSearch) == 2 ==> s.search(0).Raised? && ContainsFolded(s.search(0).message, "index"))
            && (s.search(0).Ok? ==> Count(t, VideoSearch) <= 1)
  {
    var it := ParseIndexType(req.indexType).value;
    var t := Run(env, req, s).trace;
    assert t == Execute(req, it, s).trace;
    var loc := Locate(req.videoId, req.url, s.collection);
    var found := s.collection.connect.Ok? && loc.outcome.Ok? && loc.outcome.value.video.Some?;
    var l := if s.collection.connect.Ok? then loc.trace else [];
    var v := if found then OnVideo(req, it, loc.outcome.value.videoId, s).trace else [];
    if s.collection.connect.Ok? {
      ExecuteVideoTrace(req, it, s);
      LocateCalls(req.videoId, req.url, s.collection);
      LocateCounts(req.videoId, req.url, s.collection);
      assert Count(loc.trace, Upload(req.url)) <= 1;
    }
    if found {
      OnVideoCalls(req, it, loc.outcome.value.videoId, s);
    }
    VideoCounts(t, l, v, it, req.url, if req.url != "" then 2 else 1,
                s.search(0).Raised? && ContainsFolded(s.search(0).message, "index"), s.search(0).Ok?);
  }

  /** A video with a ready index whose first search returns two shots:
      two results, a compiled stream, and no indexing or retry. */
  lemma TwoShotScenario(env: Env, v: Video, a: Shot, b: Shot, u: string, s: Script)
    requires EnvOk(env)
    requires s.collection.connect.Ok? && s.collection.lookup == Ok(Some(v))
    requires s.search(0) == Ok([a, b]) && s.compile == Ok(u)
    ensures var r := Run(env, Defaults("pricing", "vid_1", ""), s);
            && r.reply == Results("pricing", "video", "vid_1", SearchHits([a, b], "vid_1"), 2, Some(u))
            && r.trace == [Connect, GetVideo("vid_1"), VideoSearch, Compile]
  {
    ParseTypesRoundTrip(Semantic, SpokenWord, "");
  }
}

=== FILE: text.dfy ===
/** String helpers shared by the skills: lower-casing, substring search,
    Python's `str.find`, whitespace splitting and decimal rendering. */
module Text {

  /** ASCII letters are folded; every other character is left alone. */
  function LowerChar(c: char): char
  {
    if 'A' <= c <= 'Z' then (c as int + 32) as char else c
  }

  function Lower(s: string): (r: string)
    ensures |r| == |s|
    ensures forall i :: 0 <= i < |s| ==> r[i] == LowerChar(s[i])
  {
    seq(|s|, i requires 0 <= i < |s| => LowerChar(s[i]))
  }

  lemma LowerIdempotent(s: string)
    ensures Lower(Lower(s)) == Lower(s)
  {
  }

  predicate StartsWith(s: string, p: string)
  {
    |p| <= |s| && s[..|p|] == p
  }

  /** `p` occurs in `s` starting at index `i`. */
  predicate OccursAt(s: string, p: string, i: nat)
  {
    i + |p| <= |s| && s[i..i + |p|] == p
  }

  /** Python's `p in s`. */
  predicate Contains(s: string, p: string)
  {
    exists i: nat :: i <= |s| && OccursAt(s, p, i)
  }

  /** Case-insensitive `p in s` for an already lower-case needle `p`,
      as in `p in str(e).lower()`. */
  predicate ContainsFolded(s: string, p: string)
  {
    Contains(Lower(s), p)
  }

  /** Python's `s.find(p, from)`: the least index at or after `from` where
      `p` occurs, or -1. */
  function FindFrom(s: string, p: string, from: nat): (r: int)
    ensures r == -1 || (from <= r && OccursAt(s, p, r))
    ensures r == -1 ==> forall i: nat :: from <= i ==> !OccursAt(s, p, i)
    ensures r != -1 ==> forall i: nat :: from <= i < r ==> !OccursAt(s, p, i)
    decreases |s| - from
  {
    if from + |p| > |s| then -1
    else if OccursAt(s, p, from) then from
    else FindFrom(s, p, from + 1)
  }

  lemma OccursAtContains(s: string, p: string, i: nat)
    requires OccursAt(s, p, i)
    ensures Contains(s, p)
  {
  }

  /** Containment is transitive: a text containing `p` contains every
      substring of `p`. */
  lemma ContainsWithin(s: string, p: string, q: string, j: nat)
    requires Contains(s, p) && OccursAt(p, q, j)
    ensures Contains(s, q)
  {
    var i: nat :| i <= |s| && OccursAt(s, p, i);
    assert forall k :: 0 <= k < |q| ==> s[i + j + k] == s[i..i + |p|][j + k] == p[j + k] == q[k];
    assert OccursAt(s, q, i + j);
  }

  /** The characters Python's `str.split()` treats as separators. */
  predicate IsSpace(c: char)
  {
    || c == ' '
    || '\t' <= c <= '\r'
    || '\U{1C}' <= c <= '\U{1F}'
    || c == '\U{85}' || c == '\U{A0}' || c == '\U{1680}'
    || '\U{2000}' <= c <= '\U{200A}'
    || c == '\U{2028}' || c == '\U{2029}' || c == '\U{202F}'
    || c == '\U{205F}' || c == '\U{3000}'
  }

  predicate NoSpace(w: string)
  {
    forall i :: 0 <= i < |w| ==> !IsSpace(w[i])
  }

  predicate AllSpace(w: string)
  {
    forall i :: 0 <= i < |w| ==> IsSpace(w[i])
  }

  /** `s` with its leading separators removed. */
  function DropSpaces(s: string): (r: string)
    ensures |r| <= |s|
    ensures r == [] || !IsSpace(r[0])
  {
    if s != [] && IsSpace(s[0]) then DropSpaces(s[1..]) else s
  }

  /** Length of the run of non-separators at the front of `s`. */
  function WordLen(s: string): (n: nat)
    ensures n <= |s|
    ensures forall i :: 0 <= i < n ==> !IsSpace(s[i])
    ensures n == |s| || IsSpace(s[n])
  {
    if s != [] && !IsSpace(s[0]) then 1 + WordLen(s[1..]) else 0
  }

  /** Python's `s.split()` with no separator argument: the maximal runs of
      non-separator characters, in order. */
  function Split(s: string): (r: seq<string>)
    ensures forall k :: 0 <= k < |r| ==> IsToken(r[k])
    decreases |s|
  {
    var t := DropSpaces(s);
    if t == [] then []
    else
      var n := WordLen(t);
      assert n > 0;
      var w := t[..n];
      assert IsToken(w);
      [w] + Split(t[n..])
  }

  /** A token of `str.split()`: non-empty and free of separators. */
  predicate IsToken(w: string)
  {
    |w| > 0 && NoSpace(w)
  }

  lemma {:induction false} DropSpacesAll(s: string)
    requires AllSpace(s)
    ensures DropSpaces(s) == []
    decreases |s|
  {
    if s != [] {
      DropSpacesAll(s[1..]);
    }
  }

  lemma {:induction false} DropSpacesBlank(s: string)
    requires DropSpaces(s) == []
    ensures AllSpace(s)
    decreases |s|
  {
    if s != [] {
      DropSpacesBlank(s[1..]);
      assert forall i :: 1 <= i < |s| ==> s[i] == s[1..][i - 1];
    }
  }

  lemma {:induction false} DropSpacesAppend(a: string, b: string)
    requires !AllSpace(a)
    ensures DropSpaces(a + b) == DropSpaces(a) + b
    decreases |a|
  {
    assert a != [];
    if IsSpace(a[0]) {
      assert (a + b)[1..] == a[1..] + b;
      assert !AllSpace(a[1..]) by {
        var i :| 0 <= i < |a| && !IsSpace(a[i]);
        assert a[1..][i - 1] == a[i];
      }
      DropSpacesAppend(a[1..], b);
    }
  }

  lemma {:induction false} DropSpacesSpacePrefix(a: string, b: string)
    requires AllSpace(a)
    ensures DropSpaces(a + b) == DropSpaces(b)
    decreases |a|
  {
    if a != [] {
      assert (a + b)[1..] == a[1..] + b;
      assert (a + b)[0] == a[0];
      DropSpacesSpacePrefix(a[1..], b);
    } else {
      assert a + b == b;
    }
  }

  lemma {:induction false} WordLenAppend(a: string, b: string)
    requires WordLen(a) < |a|
    ensures WordLen(a + b) == WordLen(a)
    decreases |a|
  {
    if !IsSpace(a[0]) {
      assert (a + b)[1..] == a[1..] + b;
      WordLenAppend(a[1..], b);
    }
  }

  lemma {:induction false} WordLenSpaceAfter(a: string, c: char, b: string)
    requires WordLen(a) == |a|
    requires IsSpace(c)
    ensures WordLen(a + [c] + b) == |a|
    decreases |a|
  {
    if a == [] {
      assert (a + [c] + b)[0] == c;
    } else {
      assert (a + [c] + b)[1..] == a[1..] + [c] + b;
      assert (a + [c] + b)[0] == a[0];
      WordLenSpaceAfter(a[1..], c, b);
    }
  }

  /** `split()` looks at its input only after the leading separators. */
  lemma SplitDropped(s: string)
    ensures Split(s) == Split(DropSpaces(s))
  {
    var t := DropSpaces(s);
    assert DropSpaces(t) == t;
  }

  /** One unfolding of `split()` on text that is not blank. */
  lemma SplitUnfold(s: string)
    requires DropSpaces(s) != []
    ensures var t := DropSpaces(s);
            && 0 < WordLen(t)
            && Split(s) == [t[..WordLen(t)]] + Split(t[WordLen(t)..])
  {
  }

  /** Blank text followed by a separator contributes no token. */
  lemma SplitSpacePrefix(a: string, c: char, b: string)
    requires AllSpace(a) && IsSpace(c)
    ensures Split(a) == [] && Split(a + [c] + b) == Split(b)
  {
    DropSpacesAll(a);
    assert AllSpace(a + [c]);
    assert a + [c] + b == (a + [c]) + b;
    DropSpacesSpacePrefix(a + [c], b);
    SplitDropped(a + [c] + b);
    SplitDropped(b);
  }

  /** A word ended by a separator is one token, followed by the tokens of
      what comes after the separator. */
  lemma SplitLastWord(t: string, c: char, b: string)
    requires t != [] && WordLen(t) == |t| && IsSpace(c)
    ensures Split(t + [c] + b) == [t] + Split(b)
  {
    var u := t + [c] + b;
    WordLenSpaceAfter(t, c, b);
    assert u[0] == t[0] && !IsSpace(u[0]);
    assert DropSpaces(u) == u;
    SplitUnfold(u);
    assert u[..|t|] == t;
    assert u[|t|..] == [c] + b;
    assert DropSpaces([c] + b) == DropSpaces(b) by {
      assert ([c] + b)[1..] == b;
    }
    SplitDropped([c] + b);
    SplitDropped(b);
  }

  /** A word that ends before the text does is the first token whatever
      is appended. */
  lemma SplitInnerWord(t: string, c: char, b: string)
    requires t != [] && !IsSpace(t[0]) && WordLen(t) < |t|
    ensures var n := WordLen(t);
            Split(t + [c] + b) == [t[..n]] + Split(t[n..] + [c] + b)
  {
    var n := WordLen(t);
    var u := t + [c] + b;
    WordLenAppend(t, [c] + b);
    assert t + ([c] + b) == u;
    assert u[0] == t[0];
    assert DropSpaces(u) == u;
    SplitUnfold(u);
    assert u[..n] == t[..n];
    assert u[n..] == t[n..] + [c] + b;
  }

  /** The first token of text that is not blank, before and after a
      separator and more text are appended. */
  lemma SplitFirstWord(a: string, c: char, b: string)
    requires IsSpace(c) && !AllSpace(a)
    ensures var t := DropSpaces(a);
            var n := WordLen(t);
            && 0 < n <= |t| <= |a|
            && (n < |t| ==> Split(a + [c] + b) == [t[..n]] + Split(t[n..] + [c] + b))
            && (n < |t| ==> Split(a) == [t[..n]] + Split(t[n..]))
            && (n == |t| ==> Split(a + [c] + b) == Split(a) + Split(b))
  {
    var s := a + [c] + b;
    var t := DropSpaces(a);
    assert t != [] by {
      if t == [] {
        DropSpacesBlank(a);
      }
    }
    DropSpacesAppend(a, [c] + b);
    assert a + ([c] + b) == s;
    assert DropSpaces(s) == t + [c] + b;
    var n := WordLen(t);
    SplitUnfold(a);
    if n < |t| {
      SplitInnerWord(t, c, b);
      SplitDropped(s);
    } else {
      SplitLastWord(t, c, b);
      SplitDropped(s);
      assert t[..n] == t && t[n..] == [];
      assert Split(a) == [t];
    }
  }

  /** A separator splits a string into two independent halves:
      `(a + c + b).split() == a.split() + b.split()`. */
  lemma {:induction false} SplitAtSeparator(a: string, c: char, b: string)
    requires IsSpace(c)
    ensures Split(a + [c] + b) == Split(a) + Split(b)
    decreases |a|
  {
    if AllSpace(a) {
      SplitSpacePrefix(a, c, b);
    } else {
      SplitFirstWord(a, c, b);
      var t := DropSpaces(a);
      var n := WordLen(t);
      if n < |t| {
        SplitAtSeparator(t[n..], c, b);
        assert Split(a + [c] + b) == [t[..n]] + (Split(t[n..]) + Split(b));
      }
    }
  }

  /** A non-empty run without separators is one token. */
  lemma SplitWord(w: string)
    requires |w| > 0 && NoSpace(w)
    ensures Split(w) == [w]
  {
    assert WordLen(w) == |w|;
    assert DropSpaces(w) == w;
    assert w[..|w|] == w;
    assert w[|w|..] == [];
    assert DropSpaces([]) == [];
  }

  /** A string of separators only has no tokens. */
  lemma SplitBlank(s: string)
    requires AllSpace(s)
    ensures Split(s) == []
  {
    DropSpacesAll(s);
  }

  /** Decimal rendering of a natural number, as in an f-string `{n}`. */
  function ShowNat(n: nat): (r: string)
    ensures |r| > 0
    ensures forall i :: 0 <= i < |r| ==> '0' <= r[i] <= '9'
    decreases n
  {
    if n < 10 then [Digit(n)] else ShowNat(n / 10) + [Digit(n % 10)]
  }

  function Digit(d: nat): (c: char)
    requires d < 10
    ensures '0' <= c <= '9'
  {
    ('0' as int + d) as char
  }

  /** Reading back a string of decimal digits. */
  function ReadNat(s: string): nat
    requires forall i :: 0 <= i < |s| ==> '0' <= s[i] <= '9'
  {
    if s == [] then 0
    else ReadNat(s[..|s| - 1]) * 10 + (s[|s| - 1] as int - '0' as int)
  }

  lemma {:induction false} ShowNatRoundTrip(n: nat)
    ensures ReadNat(ShowNat(n)) == n
    decreases n
  {
    if n >= 10 {
      var r := ShowNat(n);
      assert r[..|r| - 1] == ShowNat(n / 10);
      ShowNatRoundTrip(n / 10);
    }
  }
}

=== FILE: transcript.dfy ===
/** The transcript skill (`get_transcript`): fetch a video's transcript as
    timed segments, as plain text, or both, generating it once when the
    backend reports that none exists yet. */
module Transcript {
  import opened Text
  import opened Backend
  import opened Errors
  import opened Resolver

  const Formats: seq<string> := ["timestamped", "text", "both"]

  /** The keyword arguments of `get_transcript`; "" stands for an
      absent or None video id or URL. */
  datatype Request = Request(videoId: string, url: string, format: string, force: bool)

  function Defaults(videoId: string, url: string): Request
  {
    Request(videoId, url, "timestamped", false)
  }

  /** Scripted answers: the collection calls, the i-th `get_transcript`,
      `generate_transcript`, and `get_transcript_text`. A transcript or a
      text the backend leaves empty is None. */
  datatype Script = Script(
    collection: Collection,
    fetch: nat -> Outcome<Option<seq<Segment>>>,
    generate: Outcome<()>,
    text: Outcome<Option<string>>)

  /** The `transcript` and `segment_count` fields. */
  datatype Timed = Timed(transcript: Option<seq<Segment>>, segmentCount: nat)

  /** The `text` and `word_count` fields. */
  datatype Plain = Plain(text: Option<string>, wordCount: nat)

  datatype Reply =
    | Failed(failure: Failure)
    | Fetched(videoId: string, videoName: string, duration: Option<real>, timed: Option<Timed>, plain: Option<Plain>)

  // Input validation

  const FormatMessage: string := "Format must be one of: ['timestamped', 'text', 'both']"
  const VideoIdMessage: string := "video_id or url is required"

  function Checks(env: Env, req: Request): seq<Check>
  {
    EnvChecks(env) +
    [ Check(req.format in Formats, Failure(InvalidFormat, FormatMessage)),
      Check(req.videoId != "" || req.url != "", Failure(MissingVideoId, VideoIdMessage)) ]
  }

  /** The checks made before any connection, in this order. */
  function Validate(env: Env, req: Request): (r: Option<Failure>)
    ensures !env.sdkInstalled ==> r == Some(Failure(MissingDependency, DependencyMessage))
    ensures env.sdkInstalled && env.apiKey == "" ==> r == Some(Failure(MissingApiKey, ApiKeyMessage))
    ensures EnvOk(env) && req.format !in Formats ==> r == Some(Failure(InvalidFormat, FormatMessage))
    ensures (EnvOk(env) && req.format in Formats && req.videoId == "" && req.url == "") ==>
              r == Some(Failure(MissingVideoId, VideoIdMessage))
    ensures r.None? <==> EnvOk(env) && req.format in Formats && (req.videoId != "" || req.url != "")
  {
    var cs := Checks(env, req);
    assert cs[0].passes == env.sdkInstalled && cs[1].passes == (env.apiKey != "");
    assert cs[2].passes == (req.format in Formats);
    assert cs[3].passes == (req.videoId != "" || req.url != "");
    FirstFailure(cs)
  }

  // Result fields

  /** `segment_count`: the number of segments, 0 for no transcript. */
  function SegmentCount(t: Option<seq<Segment>>): (r: nat)
    ensures r == 0 <==> t.None? || t.value == []
    ensures t.Some? ==> r == |t.value|
  {
    match t
    case None => 0
    case Some(segments) => |segments|
  }

  /** `word_count`: the number of whitespace-separated words, 0 for no
      text. */
  function WordCount(text: Option<string>): (r: nat)
    ensures text.Some? ==> r == |Split(text.value)|
    ensures text.None? ==> r == 0
  {
    match text
    case None => 0
    case Some(t) =>
      if t == "" then (assert DropSpaces(t) == []; 0) else |Split(t)|
  }

  /** Word counts are whitespace-based: a separator adds the counts of
      both sides, a separator-free run counts one, and blank text none. */
  lemma WordCountSpec(a: string, c: char, b: string, w: string)
    requires IsSpace(c)
    ensures WordCount(Some(a + [c] + b)) == WordCount(Some(a)) + WordCount(Some(b))
    ensures IsToken(w) ==> WordCount(Some(w)) == 1
    ensures AllSpace(a) ==> WordCount(Some(a)) == 0
  {
    SplitAtSeparator(a, c, b);
    if IsToken(w) {
      SplitWord(w);
    }
    if AllSpace(a) {
      SplitBlank(a);
    }
  }

  /** `duration`: the video's length, falling back to its duration
      attribute when the length is absent or zero. */
  function Duration(v: Video): (r: Option<real>)
    ensures v.length.Some? && v.length.value != 0.0 ==> r == v.length
    ensures v.length.None? || v.length.value == 0.0 ==> r == v.duration
  {
    if v.length.Some? && v.length.value != 0.0 then v.length else v.duration
  }

  // Ensure, then fetch

  /** The exception texts that make `ensure_transcript` generate one. */
  predicate Missing(raw: string)
  {
    ContainsFolded(raw, "does not exist") || ContainsFolded(raw, "generate transcript")
  }

  /** `ensure_transcript`: fetch; when the transcript is missing, generate
      it once and fetch once more without forcing; re-raise any other
      error. */
  function EnsureTranscript(force: bool, s: Script): (r: Step<Option<seq<Segment>>>)
    ensures |r.trace| > 0 && r.trace[0] == GetTranscript(force)
    ensures s.fetch(0).Ok? ==> r == Step(s.fetch(0), [GetTranscript(force)])
    ensures s.fetch(0).Raised? && !Missing(s.fetch(0).message) ==> r == Step(s.fetch(0), [GetTranscript(force)])
    ensures s.fetch(0).Raised? && Missing(s.fetch(0).message) && s.generate.Raised? ==>
              r == Step(Raised(s.generate.message), [GetTranscript(force), GenerateTranscript])
    ensures s.fetch(0).Raised? && Missing(s.fetch(0).message) && s.generate.Ok? ==>
              r == Step(s.fetch(1), [GetTranscript(force), GenerateTranscript, GetTranscript(false)])
  {
    match s.fetch(0)
    case Ok(t) => Step(Ok(t), [GetTranscript(force)])
    case Raised(m) =>
      if !Missing(m) then Step(Raised(m), [GetTranscript(force)])
      else
        match s.generate
        case Raised(g) => Step(Raised(g), [GetTranscript(force), GenerateTranscript])
        case Ok(_) => Step(s.fetch(1), [GetTranscript(force), GenerateTranscript, GetTranscript(false)])
  }

  /** Generation happens at most once and only for a missing transcript;
      at most two fetches are made. */
  lemma EnsureTranscriptCalls(force: bool, s: Script)
    ensures var r := EnsureTranscript(force, s);
            && Count(r.trace, GenerateTranscript) <= 1
            && (GenerateTranscript in r.trace <==> s.fetch(0).Raised? && Missing(s.fetch(0).message))
            && |r.trace| <= 3
            && (forall c :: c in r.trace ==> c.GetTranscript? || c == GenerateTranscript)
            && GetTranscriptText !in r.trace
  {
  }

  // Format dispatch

  /** The fields a format asks for, after exactly one ensure step. */
  function Dispatch(req: Request, s: Script): (r: Step<(Option<Timed>, Option<Plain>)>)
    requires req.format in Formats
    ensures var e := EnsureTranscript(req.force, s);
            && (e.outcome.Raised? ==> r == Step(Raised(e.outcome.message), e.trace))
            && (e.outcome.Ok? && req.format == "timestamped" ==>
                  r == Step(Ok((Some(Timed(e.outcome.value, SegmentCount(e.outcome.value))), None)), e.trace))
            && (e.outcome.Ok? && req.format != "timestamped" ==>
                  r.trace == e.trace + [GetTranscriptText]
                  && (s.text.Raised? ==> r.outcome == Raised(s.text.message))
                  && (s.text.Ok? ==>
                        var plain := Some(Plain(s.text.value, WordCount(s.text.value)));
                        r.outcome == Ok((if req.format == "both" then Some(Timed(e.outcome.value, SegmentCount(e.outcome.value))) else None, plain))))
  {
    var e := EnsureTranscript(req.force, s);
    match e.outcome
    case Raised(m) => Step(Raised(m), e.trace)
    case Ok(t) =>
      var timed := if req.format in ["timestamped", "both"] then Some(Timed(t, SegmentCount(t))) else None;
      if req.format in ["text", "both"] then
        match s.text
        case Raised(m) => Step(Raised(m), e.trace + [GetTranscriptText])
        case Ok(text) => Step(Ok((timed, Some(Plain(text, WordCount(text))))), e.trace + [GetTranscriptText])
      else
        Step(Ok((timed, None)), e.trace)
  }

  /** Every valid format runs the ensure step exactly once: the trace is
      one `ensure_transcript` trace, followed by the text fetch for the
      formats that include text, and `timestamped` never fetches text. */
  lemma OneEnsurePerFormat(req: Request, s: Script)
    requires req.format in Formats
    ensures var r := Dispatch(req, s);
            && Count(r.trace, GenerateTranscript) <= 1
            && Count(r.trace, GetTranscriptText) <= 1
            && (GetTranscriptText in r.trace ==> req.format != "timestamped")
            && (r.outcome.Ok? ==>
                  && (r.outcome.value.0.Some? <==> req.format != "text")
                  && (r.outcome.value.1.Some? <==> req.format != "timestamped"))
  {
    var e := EnsureTranscript(req.force, s);
    EnsureTranscriptCalls(req.force, s);
    var r := Dispatch(req, s);
    if e.outcome.Ok? && req.format != "timestamped" {
      assert multiset(r.trace) == multiset(e.trace) + multiset([GetTranscriptText]);
    }
  }

  // The outer exception handler

  const NoTranscriptMessage: string := "No transcript available. Video may still be processing."
  const ProcessingMessage: string := "Transcript is being generated. Try again in a few minutes."

  const Rules: seq<Rule> := [
    Rule(["no transcript", "not found"], NoTranscript, NoTranscriptMessage),
    Rule(["processing"], Processing, ProcessingMessage)
  ]

  /** The skill's exception classifier. */
  function ClassifyError(raw: string): (r: Failure)
    ensures ContainsFolded(raw, "no transcript") || ContainsFolded(raw, "not found") ==>
              r == Failure(NoTranscript, NoTranscriptMessage)
    ensures !ContainsFolded(raw, "no transcript") && !ContainsFolded(raw, "not found") && ContainsFolded(raw, "processing") ==>
              r == Failure(Processing, ProcessingMessage)
    ensures !ContainsFolded(raw, "no transcript") && !ContainsFolded(raw, "not found") && !ContainsFolded(raw, "processing") ==>
              r == Failure(TranscriptError, raw)
  {
    assert Fires(Rules[0], raw) <==> ContainsFolded(raw, "no transcript") || ContainsFolded(raw, "not found") by {
      assert Rules[0].needles[0] == "no transcript" && Rules[0].needles[1] == "not found";
    }
    assert Fires(Rules[1], raw) <==> ContainsFolded(raw, "processing") by {
      assert Rules[1].needles[0] == "processing";
    }
    Classify(Rules, TranscriptError, raw)
  }

  // The whole skill

  /** Everything inside the `try`. */
  function Execute(req: Request, s: Script): (r: Step<Reply>)
    requires req.format in Formats
    ensures |r.trace| > 0 && r.trace[0] == Connect
    ensures s.collection.connect.Raised? ==> r == Step(Raised(s.collection.connect.message), [Connect])
    ensures s.collection.connect.Ok? ==>
              var loc := Locate(req.videoId, req.url, s.collection);
              && (loc.outcome.Raised? ==> r == Step(Raised(loc.outcome.message), [Connect] + loc.trace))
              && (loc.outcome.Ok? && loc.outcome.value.video.None? ==>
                    r == Step(Ok(Failed(NotFound(loc.outcome.value.videoId))), [Connect] + loc.trace))
              && (loc.outcome.Ok? && loc.outcome.value.video.Some? ==>
                    var l := loc.outcome.value;
                    var v := l.video.value;
                    var d := Dispatch(req, s);
                    && r.trace == [Connect] + loc.trace + d.trace
                    && (d.outcome.Raised? ==> r.outcome == Raised(d.outcome.message))
                    && (d.outcome.Ok? ==>
                          r.outcome == Ok(Fetched(l.videoId, if v.name.Some? then v.name.value else l.videoId,
                                                  Duration(v), d.outcome.value.0, d.outcome.value.1))))
  {
    match s.collection.connect
    case Raised(m) => Step(Raised(m), [Connect])
    case Ok(_) =>
      var loc := Locate(req.videoId, req.url, s.collection);
      match loc.outcome
      case Raised(m) => Step(Raised(m), [Connect] + loc.trace)
      case Ok(l) =>
        match l.video
        case None => Step(Ok(Failed(NotFound(l.videoId))), [Connect] + loc.trace)
        case Some(v) =>
          var d := Dispatch(req, s);
          var out := match d.outcome
                     case Raised(m) => Raised(m)
                     case Ok(fields) => Ok(Fetched(l.videoId, v.name.GetOr(l.videoId), Duration(v), fields.0, fields.1));
          Step(out, [Connect] + loc.trace + d.trace)
  }

  /** The skill: validation failures are reported before any backend
      call; otherwise the skill connects first, and an exception that
      escapes is classified. */
  function Run(env: Env, req: Request, s: Script): (r: Response<Reply>)
    ensures Validate(env, req).Some? <==> r.trace == []
    ensures Validate(env, req).Some? ==> r.reply == Failed(Validate(env, req).value)
    ensures Validate(env, req).None? ==> r.trace[0] == Connect
    ensures Validate(env, req).None? ==> r.trace == Execute(req, s).trace
    ensures Validate(env, req).None? && Execute(req, s).outcome.Ok? ==> r.reply == Execute(req, s).outcome.value
    ensures Validate(env, req).None? && Execute(req, s).outcome.Raised? ==>
              r.reply == Failed(ClassifyError(Execute(req, s).outcome.message))
  {
    match Validate(env, req)
    case Some(f) => Response(Failed(f), [])
    case None =>
      var e := Execute(req, s);
      match e.outcome
      case Ok(reply) => Response(reply, e.trace)
      case Raised(m) => Response(Failed(ClassifyError(m)), e.trace)
  }

  /** A lookup by id that returns nothing is `VIDEO_NOT_FOUND` and stops
      there, before any transcript call. */
  lemma MissingVideoStops(env: Env, req: Request, s: Script)
    requires Validate(env, req).None? && req.url == ""
    requires s.collection.connect.Ok? && s.collection.lookup == Ok(None)
    ensures Run(env, req, s) == Response(Failed(NotFound(req.videoId)), [Connect, GetVideo(req.videoId)])
  {
  }
}

=== FILE: validate_skills.dfy ===
/** The skill-metadata validator (`validate_skill` and `main`): checks the
    frontmatter of each skill's SKILL.md and reports errors, which make a
    skill invalid, and warnings, which never do. */
module SkillValidator {
  import opened Text
  import opened Backend

  /** A frontmatter value as the rules see it: a string, or any other
      YAML value together with its Python truthiness. */
  datatype Value = Str(s: string) | Other(truthy: bool)

  /** The result of `yaml.safe_load` on the frontmatter text: a mapping,
      a value of another shape (None, a list, a scalar), or a parse error
      with the text `str(e)`. */
  datatype Yaml = Mapping(fields: map<string, Value>) | NotMapping | YamlError(message: string)

  /** One skill directory: its folder name, the text of SKILL.md (None
      when the file does not exist) and, for each script under `scripts/`
      that does not compile, its file name and the `SyntaxError` text. */
  datatype Skill = Skill(folder: string, content: Option<string>, syntaxErrors: seq<(string, string)>)

  /** `(is_valid, errors, warnings)`, or an exception that escapes the
      validator: `.get` on a frontmatter that is not a mapping. */
  datatype Verdict = Checked(valid: bool, errors: seq<string>, warnings: seq<string>) | Aborted

  const MaxNameLength: nat := 64
  const MaxDescriptionLength: nat := 1024
  const MinDescriptionLength: nat := 20

  const NoSkillFile: string := "SKILL.md not found"
  const NoOpening: string := "SKILL.md must start with --- (YAML frontmatter)"
  const NotClosed: string := "YAML frontmatter not closed (missing ---)"
  const MissingName: string := "Missing 'name' in frontmatter"
  const NameNotString: string := "'name' must be a string"
  // Written as two literals: the verifier can then read its characters,
  // which NameErrors needs to tell the three messages apart.
  const NamePattern: string := "Name must be lowercase letters, " + "numbers, hyphens only"
  const NameReserved: string := "Name cannot contain 'anthropic' or 'claude'"
  const MissingDescription: string := "Missing 'description' in frontmatter"
  const DescriptionNotString: string := "'description' must be a string"
  const ShortDescription: string := "Description is very short"

  function InvalidYaml(e: string): string
  {
    "Invalid YAML: " + e
  }

  function NameTooLong(n: nat): string
  {
    "Name too long (" + ShowNat(n) + " > 64 chars)"
  }

  function DescriptionTooLong(n: nat): string
  {
    "Description too long (" + ShowNat(n) + " > 1024 chars)"
  }

  function FolderMismatch(folder: string, name: string): string
  {
    "Folder '" + folder + "' doesn't match name '" + name + "'"
  }

  function SyntaxMessage(file: string, e: string): string
  {
    "Syntax error in " + file + ": " + e
  }

  // The frontmatter

  /** Where the closing delimiter starts: the first "---" at or after
      index 3, or -1. */
  function FrontmatterEnd(content: string): (r: int)
    ensures r == -1 || (3 <= r && OccursAt(content, "---", r))
    ensures r == -1 <==> forall i: nat :: 3 <= i ==> !OccursAt(content, "---", i)
    ensures r != -1 ==> forall i: nat :: 3 <= i < r ==> !OccursAt(content, "---", i)
  {
    FindFrom(content, "---", 3)
  }

  /** The frontmatter text: between the opening delimiter and the first
      closing one, which therefore holds no delimiter itself. */
  function Frontmatter(content: string): (r: string)
    requires StartsWith(content, "---") && FrontmatterEnd(content) != -1
    ensures 3 + |r| + 3 <= |content|
    ensures content[..3 + |r|] == "---" + r
    ensures OccursAt(content, "---", 3 + |r|)
    ensures !Contains(r, "---")
    ensures forall i: nat :: 3 <= i < 3 + |r| ==> !OccursAt(content, "---", i)
    ensures 3 + |r| == FrontmatterEnd(content)
  {
    var e := FrontmatterEnd(content);
    var r := content[3..e];
    assert content[..3 + |r|] == content[..3] + r;
    assert !Contains(r, "---") by {
      forall j: nat | j <= |r| && OccursAt(r, "---", j)
        ensures false
      {
        assert content[3 + j..3 + j + 3] == r[j..j + 3];
        assert OccursAt(content, "---", 3 + j);
      }
    }
    r
  }

  // The name rules

  predicate NameChar(c: char)
  {
    'a' <= c <= 'z' || '0' <= c <= '9' || c == '-'
  }

  /** The name pattern: one or more lower-case letters, digits or
      hyphens, anchored at both ends. Python's end anchor also matches
      just before a final newline, so one trailing "\n" is accepted. */
  predicate NamePatternOk(name: string)
  {
    var body := PatternBody(name);
    |body| > 0 && AllNameChars(body)
  }

  /** The part of `name` the character class must cover. */
  function PatternBody(name: string): string
  {
    if |name| > 0 && name[|name| - 1] == '\n' then name[..|name| - 1] else name
  }

  predicate AllNameChars(s: string)
  {
    forall i :: 0 <= i < |s| ==> NameChar(s[i])
  }

  /** On a name without newlines the pattern is exactly "non-empty, and
      lower-case letters, digits and hyphens only". */
  lemma NamePatternWithoutNewline(name: string)
    requires forall i :: 0 <= i < |name| ==> name[i] != '\n'
    ensures NamePatternOk(name) <==> |name| > 0 && forall i :: 0 <= i < |name| ==> NameChar(name[i])
  {
    if |name| > 0 {
      assert name[|name| - 1] != '\n';
    }
    assert PatternBody(name) == name;
  }

  /** A single trailing newline slips through the pattern; a second one,
      or a newline alone, does not. */
  lemma NamePatternTrailingNewline()
    ensures NamePatternOk("my-skill\n")
    ensures !NamePatternOk("my-skill\n\n")
    ensures !NamePatternOk("\n")
  {
    var t := "my-skill\n";
    assert PatternBody(t) == "my-skill";
    assert AllNameChars("my-skill");
    var u := "my-skill\n\n";
    assert PatternBody(u) == "my-skill\n";
    assert "my-skill\n"[8] == '\n';
    assert !AllNameChars("my-skill\n");
    assert "\n"[..0] == [];
  }

  predicate Reserved(name: string)
  {
    ContainsFolded(name, "anthropic") || ContainsFolded(name, "claude")
  }

  /** The three independent checks on a string name, in order; each adds
      its own error. */
  function NameErrors(name: string): (r: seq<string>)
    ensures NameTooLong(|name|) in r <==> |name| > MaxNameLength
    ensures NamePattern in r <==> !NamePatternOk(name)
    ensures NameReserved in r <==> Reserved(name)
    ensures forall e :: e in r ==> e == NameTooLong(|name|) || e == NamePattern || e == NameReserved
    ensures |r| <= 3
    ensures |r| == (if |name| > MaxNameLength then 1 else 0) + (if !NamePatternOk(name) then 1 else 0)
                   + (if Reserved(name) then 1 else 0)
    ensures |name| > MaxNameLength ==> r[0] == NameTooLong(|name|)
    ensures Reserved(name) ==> r[|r| - 1] == NameReserved
  {
    assert NameTooLong(|name|)[5] == 't' by {
      assert NameTooLong(|name|) == "Name too long (" + (ShowNat(|name|) + " > 64 chars)");
    }
    assert NamePattern[5] == 'm';
    assert NameReserved[5] == 'c';
    (if |name| > MaxNameLength then [NameTooLong(|name|)] else []) +
    (if !NamePatternOk(name) then [NamePattern] else []) +
    (if Reserved(name) then [NameReserved] else [])
  }

  // The description rules

  function DescriptionErrors(desc: string): (r: seq<string>)
    ensures r == [] <==> |desc| <= MaxDescriptionLength
    ensures r != [] ==> r == [DescriptionTooLong(|desc|)]
  {
    if |desc| > MaxDescriptionLength then [DescriptionTooLong(|desc|)] else []
  }

  /** A falsy value: absent, None, an empty string, or any other falsy
      YAML value. */
  predicate Falsy(v: Option<Value>)
  {
    match v
    case None => true
    case Some(Str(s)) => s == ""
    case Some(Other(t)) => !t
  }

  function Get(fields: map<string, Value>, key: string): Option<Value>
  {
    if key in fields then Some(fields[key]) else None
  }

  /** Errors and warnings of the `name` field. */
  function NameIssues(folder: string, v: Option<Value>): (r: (seq<string>, seq<string>))
    ensures Falsy(v) ==> r == ([MissingName], [])
    ensures !Falsy(v) && v.value.Other? ==> r == ([NameNotString], [])
    ensures !Falsy(v) && v.value.Str? ==>
              r.0 == NameErrors(v.value.s) && (r.1 != [] <==> folder != v.value.s)
    ensures r.1 != [] ==> r.1 == [FolderMismatch(folder, v.value.s)]
  {
    if Falsy(v) then ([MissingName], [])
    else
      match v.value
      case Other(_) => ([NameNotString], [])
      case Str(n) => (NameErrors(n), if folder != n then [FolderMismatch(folder, n)] else [])
  }

  /** Errors and warnings of the `description` field. */
  function DescriptionIssues(v: Option<Value>): (r: (seq<string>, seq<string>))
    ensures Falsy(v) ==> r == ([MissingDescription], [])
    ensures !Falsy(v) && v.value.Other? ==> r == ([DescriptionNotString], [])
    ensures !Falsy(v) && v.value.Str? ==>
              r.0 == DescriptionErrors(v.value.s) && (r.1 != [] <==> |v.value.s| < MinDescriptionLength)
    ensures r.1 != [] ==> r.1 == [ShortDescription]
  {
    if Falsy(v) then ([MissingDescription], [])
    else
      match v.value
      case Other(_) => ([DescriptionNotString], [])
      case Str(d) => (DescriptionErrors(d), if |d| < MinDescriptionLength then [ShortDescription] else [])
  }

  /** One error per script that does not compile, in order. */
  function SyntaxErrors(es: seq<(string, string)>): (r: seq<string>)
    ensures |r| == |es|
    ensures forall i :: 0 <= i < |es| ==> r[i] == SyntaxMessage(es[i].0, es[i].1)
  {
    seq(|es|, i requires 0 <= i < |es| => SyntaxMessage(es[i].0, es[i].1))
  }

  /** The checks after a frontmatter mapping was read. */
  function CheckFields(sk: Skill, fields: map<string, Value>): (r: Verdict)
    ensures r.Checked?
    ensures r.valid <==> r.errors == []
    ensures var n := NameIssues(sk.folder, Get(fields, "name"));
            var d := DescriptionIssues(Get(fields, "description"));
            && r.errors == n.0 + d.0 + SyntaxErrors(sk.syntaxErrors)
            && r.warnings == n.1 + d.1
  {
    var n := NameIssues(sk.folder, Get(fields, "name"));
    var d := DescriptionIssues(Get(fields, "description"));
    var errors := n.0 + d.0 + SyntaxErrors(sk.syntaxErrors);
    Checked(errors == [], errors, n.1 + d.1)
  }

  /** `validate_skill`, with `parse` standing for `yaml.safe_load`. */
  function ValidateSkill(sk: Skill, parse: string -> Yaml): (r: Verdict)
    ensures r.Checked? ==> (r.valid <==> r.errors == [])
    ensures sk.content.None? ==> r == Checked(false, [NoSkillFile], [])
    ensures sk.content.Some? && !StartsWith(sk.content.value, "---") ==> r == Checked(false, [NoOpening], [])
    ensures sk.content.Some? && StartsWith(sk.content.value, "---") && FrontmatterEnd(sk.content.value) == -1 ==>
              r == Checked(false, [NotClosed], [])
    ensures sk.content.Some? && StartsWith(sk.content.value, "---") && FrontmatterEnd(sk.content.value) != -1 ==>
              var y := parse(Frontmatter(sk.content.value));
              && (y.YamlError? ==> r == Checked(false, [InvalidYaml(y.message)], []))
              && (y.NotMapping? ==> r == Aborted)
              && (y.Mapping? ==> r == CheckFields(sk, y.fields))
  {
    match sk.content
    case None => Checked(false, [NoSkillFile], [])
    case Some(c) =>
      if !StartsWith(c, "---") then Checked(false, [NoOpening], [])
      else if FrontmatterEnd(c) == -1 then Checked(false, [NotClosed], [])
      else
        match parse(Frontmatter(c))
        case YamlError(e) => Checked(false, [InvalidYaml(e)], [])
        case NotMapping => Aborted
        case Mapping(fields) => CheckFields(sk, fields)
  }

  /** Only the frontmatter text reaches the parser: two parsers that agree
      on it give the same verdict. */
  lemma OnlyFrontmatterParsed(sk: Skill, p: string -> Yaml, q: string -> Yaml)
    requires sk.content.Some? && StartsWith(sk.content.value, "---") && FrontmatterEnd(sk.content.value) != -1
    requires p(Frontmatter(sk.content.value)) == q(Frontmatter(sk.content.value))
    ensures ValidateSkill(sk, p) == ValidateSkill(sk, q)
  {
  }

  /** Warnings never decide validity: the folder name only ever produces
      a warning, so renaming the folder changes neither the errors nor
      validity. */
  lemma WarningsNeverInvalidate(sk: Skill, folder: string, parse: string -> Yaml)
    ensures var r := ValidateSkill(sk, parse);
            var r' := ValidateSkill(sk.(folder := folder), parse);
            && r.Checked? == r'.Checked?
            && (r.Checked? ==> r.valid == r'.valid && r.errors == r'.errors)
  {
  }

  /** The exact boundaries: a 64-character name and a description of 20
      or 1024 characters are clean; one more or one fewer is not. */
  lemma LengthBoundaries(name: string, desc: string)
    ensures |name| == MaxNameLength ==> NameTooLong(|name|) !in NameErrors(name)
    ensures |name| == MaxNameLength + 1 ==> NameTooLong(|name|) in NameErrors(name)
    ensures MinDescriptionLength <= |desc| <= MaxDescriptionLength ==>
              DescriptionIssues(Some(Str(desc))) == ([], [])
    ensures |desc| == MaxDescriptionLength + 1 ==> DescriptionIssues(Some(Str(desc))).0 != []
    ensures 0 < |desc| == MinDescriptionLength - 1 ==> DescriptionIssues(Some(Str(desc))) == ([], [ShortDescription])
  {
  }

  // The command-line driver

  /** One entry of the skills directory. */
  datatype Entry = Entry(name: string, isDir: bool)

  const Excluded: seq<string> := ["__pycache__", "venv", "env", "scripts"]

  /** The entries validated when no skill is named: directories that are
      not hidden and not one of the excluded names. */
  predicate Kept(e: Entry)
  {
    e.isDir && !StartsWith(e.name, ".") && e.name !in Excluded
  }

  function SkillDirs(entries: seq<Entry>): (r: seq<string>)
    ensures |r| <= |entries|
    ensures forall n :: n in r <==> exists i :: 0 <= i < |entries| && Kept(entries[i]) && entries[i].name == n
  {
    if entries == [] then []
    else
      var rest := SkillDirs(entries[1..]);
      assert forall i :: 1 <= i < |entries| ==> entries[i] == entries[1..][i - 1];
      assert forall i :: 0 <= i < |entries[1..]| ==> entries[1..][i] == entries[i + 1];
      if Kept(entries[0]) then [entries[0].name] + rest else rest
  }

  /** A requested path passes when it exists and its skill validates with
      no error. */
  predicate Passes(path: Option<Skill>, parse: string -> Yaml)
  {
    path.Some? && var r := ValidateSkill(path.value, parse); r.Checked? && r.valid
  }

  /** The exit status of `main` over the requested names, `lookup`
      resolving each to its directory (None for one that does not exist):
      0 exactly when every path passes. A verdict that aborts ends the run
      with status 1. */
  function ExitStatus(names: seq<string>, lookup: string -> Option<Skill>, parse: string -> Yaml): (code: nat)
    ensures code == 0 <==> forall i :: 0 <= i < |names| ==> Passes(lookup(names[i]), parse)
    ensures code == 0 || code == 1
  {
    if names == [] then 0
    else
      var rest := ExitStatus(names[1..], lookup, parse);
      assert forall i :: 1 <= i < |names| ==> names[i] == names[1..][i - 1];
      if Passes(lookup(names[0]), parse) then rest else 1
  }

  /** `main`: the named skill, or every kept directory. */
  function Main(named: Option<string>, entries: seq<Entry>, lookup: string -> Option<Skill>, parse: string -> Yaml): (code: nat)
    ensures named.Some? ==> (code == 0 <==> Passes(lookup(named.value), parse))
    ensures named.None? ==> (code == 0 <==> forall n :: n in SkillDirs(entries) ==> Passes(lookup(n), parse))
  {
    if named.Some? then
      var names := [named.value];
      assert names[0] == named.value;
      ExitStatus(names, lookup, parse)
    else
      var names := SkillDirs(entries);
      assert forall n :: n in names <==> exists i :: 0 <= i < |names| && names[i] == n;
      ExitStatus(names, lookup, parse)
  }

  lemma PassesIgnoresFolder(sk: Skill, folder: string, parse: string -> Yaml)
    ensures Passes(Some(sk), parse) == Passes(Some(sk.(folder := folder)), parse)
  {
    WarningsNeverInvalidate(sk, folder, parse);
  }

  /** Warnings are irrelevant to the exit status: resolving every name to
      the same skill in a differently named folder leaves it unchanged. */
  lemma {:induction false} ExitIgnoresWarnings(names: seq<string>, lookup: string -> Option<Skill>, renamed: string -> Option<Skill>, parse: string -> Yaml)
    requires forall i :: 0 <= i < |names| ==> lookup(names[i]).Some? == renamed(names[i]).Some?
    requires forall i :: 0 <= i < |names| && lookup(names[i]).Some? && renamed(names[i]).Some? ==>
               renamed(names[i]).value == lookup(names[i]).value.(folder := renamed(names[i]).value.folder)
    ensures ExitStatus(names, lookup, parse) == ExitStatus(names, renamed, parse)
    decreases |names|
  {
    if names != [] {
      if lookup(names[0]).Some? {
        PassesIgnoresFolder(lookup(names[0]).value, renamed(names[0]).value.folder, parse);
      }
      assert forall i :: 1 <= i < |names| ==> names[i] == names[1..][i - 1];
      ExitIgnoresWarnings(names[1..], lookup, renamed, parse);
    }
  }

}

=== FILE: youtube.dfy ===
/** `extract_youtube_id`, identical in the three video skills: a regular
    expression search for one of three YouTube prefixes followed by a run
    of id characters, returning that run, or None when nothing matches.
    The model is an explicit leftmost-match scan. */
module YouTube {
  import opened Text
  import opened Backend

  const WatchPrefix: string := "youtube.com/watch?v="
  const ShortPrefix: string := "youtu.be/"
  const EmbedPrefix: string := "youtube.com/embed/"

  /** `[\w-]`, with `\w` taken as the ASCII word characters. */
  predicate IsIdChar(c: char)
  {
    'a' <= c <= 'z' || 'A' <= c <= 'Z' || '0' <= c <= '9' || c == '_' || c == '-'
  }

  /** Length of the alternative of the prefix group that occurs at `i`,
      tried in the pattern's order. */
  function PrefixAt(url: string, i: nat): Option<nat>
  {
    if OccursAt(url, WatchPrefix, i) then Some(|WatchPrefix|)
    else if OccursAt(url, ShortPrefix, i) then Some(|ShortPrefix|)
    else if OccursAt(url, EmbedPrefix, i) then Some(|EmbedPrefix|)
    else None
  }

  /** No two alternatives of the prefix group occur at the same place, so
      the order in which the regex engine tries them cannot change the
      match. */
  lemma AlternativesExclusive(url: string, i: nat)
    ensures !(OccursAt(url, WatchPrefix, i) && OccursAt(url, ShortPrefix, i))
    ensures !(OccursAt(url, WatchPrefix, i) && OccursAt(url, EmbedPrefix, i))
    ensures !(OccursAt(url, ShortPrefix, i) && OccursAt(url, EmbedPrefix, i))
  {
    assert OccursAt(url, WatchPrefix, i) ==> url[i + 5] == 'b' && url[i + 12] == 'w';
    assert OccursAt(url, ShortPrefix, i) ==> url[i + 5] == '.';
    assert OccursAt(url, EmbedPrefix, i) ==> url[i + 5] == 'b' && url[i + 12] == 'e';
  }

  /** Index just past the greedy run `[\w-]*` starting at `j`. */
  function RunEnd(url: string, j: nat): (e: nat)
    requires j <= |url|
    ensures j <= e <= |url|
    ensures forall k :: j <= k < e ==> IsIdChar(url[k])
    ensures e == |url| || !IsIdChar(url[e])
    decreases |url| - j
  {
    if j < |url| && IsIdChar(url[j]) then RunEnd(url, j + 1) else j
  }

  /** The whole pattern matches at `i`: a prefix followed by at least one
      id character. */
  predicate MatchesAt(url: string, i: nat)
  {
    && PrefixAt(url, i).Some?
    && i + PrefixAt(url, i).value < |url|
    && IsIdChar(url[i + PrefixAt(url, i).value])
  }

  /** `re.search` from position `from`: the leftmost match position. */
  function MatchFrom(url: string, from: nat): (r: Option<nat>)
    ensures r.Some? ==> from <= r.value < |url| && MatchesAt(url, r.value)
    ensures r.Some? ==> forall i: nat :: from <= i < r.value ==> !MatchesAt(url, i)
    ensures r.None? ==> forall i: nat :: from <= i ==> !MatchesAt(url, i)
    decreases |url| - from
  {
    if from >= |url| then None
    else if MatchesAt(url, from) then Some(from)
    else MatchFrom(url, from + 1)
  }

  /** The id captured by a match at `i`: the maximal id run after the
      prefix. */
  function TokenAt(url: string, i: nat): string
    requires MatchesAt(url, i)
  {
    var j := i + PrefixAt(url, i).value;
    url[j..RunEnd(url, j)]
  }

  function ExtractYoutubeId(url: string): (r: Option<string>)
    ensures r.None? <==> forall i: nat :: !MatchesAt(url, i)
    ensures r.Some? ==> |r.value| > 0 && Contains(url, r.value)
    ensures r.Some? ==> forall k :: 0 <= k < |r.value| ==> IsIdChar(r.value[k])
  {
    match MatchFrom(url, 0)
    case None => None
    case Some(i) =>
      var j := i + PrefixAt(url, i).value;
      var id := url[j..RunEnd(url, j)];
      assert OccursAt(url, id, j);
      Some(id)
  }

  /** A match at `i` with none before it is what `re.search` finds. */
  lemma LeftmostMatch(url: string, i: nat)
    requires MatchesAt(url, i)
    requires forall j: nat :: j < i ==> !MatchesAt(url, j)
    ensures MatchFrom(url, 0) == Some(i)
  {
    var m := MatchFrom(url, 0);
  }

  /** The token of a match is the whole id run: the character after it,
      if any, is not an id character. */
  lemma TokenIsMaximal(url: string, i: nat)
    requires MatchesAt(url, i)
    ensures var e := i + PrefixAt(url, i).value + |TokenAt(url, i)|;
            e == |url| || !IsIdChar(url[e])
  {
    var j := i + PrefixAt(url, i).value;
    var e := RunEnd(url, j);
    assert TokenAt(url, i) == url[j..e];
    assert j + |TokenAt(url, i)| == e;
  }

  /** The extracted id is exactly the token of the leftmost match, and it
      is maximal: the character after it, if any, is not an id character. */
  lemma ExtractIsLeftmostMaximalRun(url: string, i: nat)
    requires MatchesAt(url, i)
    requires forall j: nat :: j < i ==> !MatchesAt(url, j)
    ensures ExtractYoutubeId(url) == Some(TokenAt(url, i))
    ensures var e := i + PrefixAt(url, i).value + |TokenAt(url, i)|;
            e == |url| || !IsIdChar(url[e])
  {
    LeftmostMatch(url, i);
    TokenIsMaximal(url, i);
  }

  lemma OccursAtFirst(s: string, p: string, i: nat)
    requires |p| > 0 && i < |s|
    ensures OccursAt(s, p, i) ==> s[i] == p[0]
  {
    if OccursAt(s, p, i) {
      assert s[i..i + |p|][0] == s[i];
    }
  }

  /** No match can start at a character other than 'y'. */
  lemma NoMatchOffY(url: string, i: nat)
    requires i < |url| && url[i] != 'y'
    ensures !MatchesAt(url, i)
  {
    OccursAtFirst(url, WatchPrefix, i);
    OccursAtFirst(url, ShortPrefix, i);
    OccursAtFirst(url, EmbedPrefix, i);
  }

  lemma SchemeHasNoMatch(url: string, j: nat)
    requires StartsWith(url, "https://") && j < 8
    ensures !MatchesAt(url, j)
  {
    assert url[j] == "https://"[j];
    NoMatchOffY(url, j);
  }

  const ShortLinkSample: string := "https://youtu.be/abc123"

  lemma ShortLinkSampleToken()
    ensures MatchesAt(ShortLinkSample, 8)
    ensures TokenAt(ShortLinkSample, 8) == "abc123"
  {
    var url := ShortLinkSample;
    assert url[8..17] == ShortPrefix;
    assert RunEnd(url, 23) == 23;
    assert RunEnd(url, 17) == 23;
    assert url[17..23] == "abc123";
  }

  lemma ShortLinkSampleLeftmost()
    ensures forall j: nat :: j < 8 ==> !MatchesAt(ShortLinkSample, j)
  {
    assert ShortLinkSample[..8] == "https://";
    forall j: nat | j < 8
      ensures !MatchesAt(ShortLinkSample, j)
    {
      SchemeHasNoMatch(ShortLinkSample, j);
    }
  }

  lemma ShortLinkExample()
    ensures ExtractYoutubeId(ShortLinkSample) == Some("abc123")
  {
    ShortLinkSampleToken();
    ShortLinkSampleLeftmost();
    ExtractIsLeftmostMaximalRun(ShortLinkSample, 8);
  }
}
